=== FILE: README.md ===
# jira-maven-plugin: a Dafny model of the core

This project models the decision logic of the jira-maven-plugin, a Maven plugin that talks to a JIRA issue tracker while a release is being built. It proves properties about that model. The plugin exists in two variants, and both are modelled:

- the REST variant, in the `com.github.lucapino.jira` packages;
- the older SOAP variant, in the `it.peng.maven.jira` packages.

## What is modelled

**Release-version normalisation** (module `Text`).

- Every `-SNAPSHOT` is removed, each remaining `-` becomes a space, and each word is capitalised.
- Both downloaders use this. They overwrite the configured version with the result, so a second call builds the same query.
- The JQL query is built with `MessageFormat.format`. It is modelled only for the subset the plugin's templates use: `''`, `{0}` and `{1}`.

**Issue download.** Modules `RestDownloader` and `SoapDownloader`, with the shared issue record in `IssueModel` and the SOAP lookups in `SoapService`.

- The search result becomes one issue record per hit, in hit order.
- Fields are filled with the guarded setters and the lazily created lists.
- The SOAP variant resolves type, priority, resolution and status codes by the first entry whose id matches.
- It keeps the issues filled before the first failure.

**SOAP issue views and key ordering** (modules `SoapIssueView` and `IssueOrder`).

- The SOAP issue view falls back to `""`.
- The SOAP issue comparator orders issues by the number after the first `-` of the key. It parses that number the way `Long.valueOf` does, and it throws when a key does not parse.

**Release notes** (modules `ReleaseNotes` and `SoapReleaseNotes`).

- Issues are classified into the `add`, `fix` and `update` buckets, and each bucket is sorted.
- The template parameters are assembled and the before and after texts are placed.
- The early returns of `output` are included.

**Versions** (modules `RestVersions` and `SoapVersions`).

- The REST variant selects the version to release with the descending case-insensitive comparator.
- The SOAP variant picks and marks a version, and creates the next development version unless it already exists.

**Other modules.**

- `Transitions`: the workflow-transition decision per issue.
- `Mail`: sender selection and recipient assembly for the release-notes mail.
- `Lifecycle`: credential resolution from the Maven settings, and the mojo `execute` lifecycle.
- `LazyClient`: the lazy client.
- `ReportSink`: the Doxia sink calls of the issues report, modelled as an event trace with a balanced-nesting check.
- `Sorting`: `Collections.sort` / `Arrays.sort`, modelled as a stable insertion sort with proofs of ordering and stability.

**What is a parameter.** The tracker's answers are parameters: search results, versions, transitions, lookups and connection outcomes. So are comparators the sources do not define, the template renderer, and `HtmlTools.encodeId`. Java `null` is `Option.None`. An exception is the `Err` side of a `Result`, or an explicit outcome value.

### Where the model follows the code rather than the documented behaviour

- **REST search failure propagates.** The REST `getIssueList` catches only `MojoFailureException`, and nothing inside its `try` throws one. A failing search therefore propagates as `SearchFailed`. It is not turned into an empty list.
- **Bucket order is a parameter.** The REST `output` flattens the bucket map through `HashMap.values()`. The visiting order is therefore the parameter `order`, which can be any arrangement of the three categories. It is not fixed to add, fix, update.
- **The REST client is closed only on success.** `execute` closes the REST client only after `doExecute` returns normally.
- **The REST release mojo ignores its own sort.** `calculateReleaseVersion` sorts a copy of the project's versions but then walks the unsorted iterable. Its choice is therefore the first qualifying version in the order the server lists them.
- **The SOAP comparator uses the second segment.** It reads the segment after the first `-` of the key (`split("-")[1]`), not the text after the last `-`.
- **An unknown sender id is an error.** The documentation of `fromDeveloperId` says the first developer is used when no developer has the requested id. `getActualMailSender` throws instead, and `Mail.GetActualMailSender` follows the code.
- **The SOAP downloader fills the shared record, by assumption.** The SOAP `IssuesDownloader` imports `it.peng.maven.jira.model.JiraIssue`, which declares only a constructor taking a remote issue, the service and a token, plus getters. Its `new JiraIssue()` and its `set*`/`add*` calls therefore match no declaration of the imported class. The model assumes they mean the fields and setters of the REST `JiraIssue` record, which has exactly those members, and fills that record.

## Model

| member | source | states |
|---|---|---|
| Text.NormalizeVersion | src/main/java/com/github/lucapino/jira/helpers/IssuesDownloader.java:77 | the normalised version contains no '-' and is no longer than the configured one |
| Text.NormalizeVersionIdempotent | src/main/java/com/github/lucapino/jira/helpers/IssuesDownloader.java:77 | normalising an already normalised version changes nothing |
| Text.NormalizeVersionSnapshotExample | src/main/java/com/github/lucapino/jira/helpers/IssuesDownloader.java:76-77 | "1.0-SNAPSHOT" normalises to "1.0" |
| Text.NormalizeVersionDropsSnapshot | src/main/java/it/peng/maven/jira/helpers/IssuesDownloader.java:93-94 | for a dash-free version, a trailing "-SNAPSHOT" is dropped and the rest is only capitalised |
| Text.CapitalizeIdempotent | src/main/java/com/github/lucapino/jira/helpers/IssuesDownloader.java:77 | word capitalisation applied twice equals applied once |
| Text.FormatPattern | src/main/java/com/github/lucapino/jira/helpers/IssuesDownloader.java:78 | a template written from literal text, `''`, `{0}` and `{1}` formats to literal text, a single quote, the project key and the version |
| Text.FormatQuotedLiteral | src/main/java/it/peng/maven/jira/helpers/IssuesDownloader.java:95 | a brace-free literal with its quotes doubled, followed by the rest of a template, formats to the literal followed by the rest's formatting |
| Text.CompareToIgnoreCase | src/main/java/com/github/lucapino/jira/helpers/RemoteVersionComparator.java:30-32 | the comparison is zero exactly when the names are equal ignoring case |
| Text.CompareToIgnoreCaseAntisymmetric | src/main/java/com/github/lucapino/jira/helpers/RemoteVersionComparator.java:30-32 | swapping the names negates the comparison |
| Text.CompareToIgnoreCaseTransitive | src/main/java/com/github/lucapino/jira/helpers/RemoteVersionComparator.java:30-32 | the case-insensitive order is transitive |
| IssueModel.New | src/main/java/com/github/lucapino/jira/model/JiraIssue.java:46-47 | a fresh record has every field and list null and no remote handle |
| IssueModel.Set | src/main/java/com/github/lucapino/jira/model/JiraIssue.java:49-185 | a setter changes its own field only; getters return what was set |
| IssueModel.Add | src/main/java/com/github/lucapino/jira/model/JiraIssue.java:61-96 | an add creates the list when null and appends at the end; nothing else changes |
| IssueModel.CallSequence | src/main/java/com/github/lucapino/jira/model/JiraIssue.java:49-185 | after any call sequence each list holds exactly the added values in order (null until the first add) and each getter returns the last value set |
| RestDownloader.FillIssue | src/main/java/com/github/lucapino/jira/helpers/IssuesDownloader.java:150-192 | reporter, assignee, priority and resolution are set only when present; type, key, id, status and summary always; the link is URL + "/browse/" + key; lists grow in remote order, fix versions only when non-null; the remote handle is untouched |
| RestDownloader.ConvertAll | src/main/java/com/github/lucapino/jira/helpers/IssuesDownloader.java:88-92 | exactly one issue per hit, the k-th built from the k-th hit |
| RestDownloader.GetIssueList | src/main/java/com/github/lucapino/jira/helpers/IssuesDownloader.java:74-97 | the version field is overwritten with its normalisation; the query is the formatted template; a search failure propagates; otherwise the issues are the converted hits in order |
| RestDownloader.RepeatedCallSameQuery | src/main/java/com/github/lucapino/jira/helpers/IssuesDownloader.java:77-78 | calling again on the updated downloader builds the same query |
| RestDownloader.ConvertedIssueShape | src/main/java/com/github/lucapino/jira/helpers/IssuesDownloader.java:150-192 | a converted issue has no remote handle; a list stays null exactly when the remote has none; reporter and assignee are null exactly when absent remotely |
| RestDownloader.DownloadedIssuesDetached | src/main/java/com/github/lucapino/jira/helpers/IssuesDownloader.java:88-92 | no downloaded issue carries a remote handle |
| SoapService.FirstMatch | src/main/java/it/peng/maven/jira/helpers/IssuesDownloader.java:212-244 | the lookup finds nothing exactly when no entry's id matches, and otherwise returns the name of the first matching entry |
| SoapService.FirstMatchShadows | src/main/java/it/peng/maven/jira/helpers/IssuesDownloader.java:213-217 | a later entry with the same id never changes the answer |
| SoapDownloader.Fetch | src/main/java/it/peng/maven/jira/helpers/IssuesDownloader.java:205-258 | the calls and dereferences succeed exactly when none fails, and the first failure in the order the code meets them is reported. That order is project lookup, reporter, the dereference of a possibly null project, issue types, assignee, priorities, resolutions, statuses, comments, then the null checks of the components and fix-version arrays |
| SoapDownloader.FillIssue | src/main/java/it/peng/maven/jira/helpers/IssuesDownloader.java:202-263 | filling succeeds exactly when no call or dereference fails. The first failure decides the outcome: a remote exception is rewrapped as a mojo failure, and any other exception escapes unchanged. On success the scalars are the looked-up names and the lists are appended in remote order |
| SoapDownloader.NullProjectAfterReporter | src/main/java/it/peng/maven/jira/helpers/IssuesDownloader.java:207-212 | a null project with a reporter lookup that raises a remote exception gives the mojo failure, because the reporter is asked before the project is dereferenced |
| SoapDownloader.NullProjectEscapes | src/main/java/it/peng/maven/jira/helpers/IssuesDownloader.java:207-212 | once the reporter is found, a null project escapes as a `NullPointerException` |
| SoapDownloader.NullArrayEscapes | src/main/java/it/peng/maven/jira/helpers/IssuesDownloader.java:251-258 | when every remote call answers, a null components or fix-version array escapes as a `NullPointerException` |
| SoapDownloader.FillAll | src/main/java/it/peng/maven/jira/helpers/IssuesDownloader.java:105-111 | the result is the filled prefix of the hits; it stops exactly at the first hit whose filling fails |
| SoapDownloader.GetIssueList | src/main/java/it/peng/maven/jira/helpers/IssuesDownloader.java:91-113 | normalises and overwrites the version; a rejected template throws; a connection or search failure gives an empty list with a warning; otherwise the filled prefix, with a warning exactly when it is short |
| LazyClient.Obtain | src/main/java/it/peng/maven/jira/helpers/IssuesDownloader.java:188-200 | a cached client is reused without connecting; otherwise the connection's outcome, cached only on success |
| LazyClient.ConnectsAtMostOnce | src/main/java/it/peng/maven/jira/helpers/IssuesDownloader.java:188-200 | after a successful connection later calls return the same client; after a failure the next call tries again |
| SoapIssueView.GetReporter | src/main/java/it/peng/maven/jira/model/JiraIssue.java:40-48 | the reporter's full name, or "" when the remote lookup fails; other failures escape |
| SoapIssueView.GetType | src/main/java/it/peng/maven/jira/model/JiraIssue.java:58-73 | the name of the first project issue type whose id matches the type code. It is "" when none matches or a lookup raises a remote exception. A null project, or any other exception, escapes |
| SoapIssueView.UnknownTypeReadsEmpty | src/main/java/it/peng/maven/jira/model/JiraIssue.java:59-68 | a type code no entry carries reads as "" |
| IssueOrder.ParseLong | src/main/java/it/peng/maven/jira/helpers/JiraIssueComparator.java:29 | a segment parses exactly when it is an optional '+' and one or more ASCII digits with value at most 2^63-1, and then yields that value |
| IssueOrder.Compare | src/main/java/it/peng/maven/jira/helpers/JiraIssueComparator.java:28-30 | the comparison succeeds exactly when both second key segments parse, yields -1, 0 or 1, and its sign is the order of the two numbers |
| IssueOrder.CompareAntisymmetric | src/main/java/it/peng/maven/jira/helpers/JiraIssueComparator.java:28-30 | swapping the keys negates the result |
| IssueOrder.CompareTransitive | src/main/java/it/peng/maven/jira/helpers/JiraIssueComparator.java:28-30 | the key order is transitive |
| IssueOrder.DecimalValue | src/main/java/it/peng/maven/jira/helpers/JiraIssueComparator.java:29 | the decimal rendering of a number parses back to that number |
| IssueOrder.CrossProjectKeysTie | src/main/java/it/peng/maven/jira/helpers/JiraIssueComparator.java:29 | keys of different projects with the same number compare equal |
| IssueOrder.SortIssues | src/main/java/it/peng/maven/jira/GenerateReleaseNotesMojo.java:155-159 | the sort throws exactly when there are two or more issues and some key does not parse; otherwise it permutes the issues |
| IssueOrder.SortIssuesOrdered | src/main/java/it/peng/maven/jira/GenerateReleaseNotesMojo.java:155-159 | a successful sort leaves the key numbers non-decreasing and keeps equal keys in input order |
| Sorting.SortBySorted | src/main/java/com/github/lucapino/jira/GenerateReleaseNotesMojo.java:215-217 | under a total preorder the sorted list is ordered |
| Sorting.SortByStable | src/main/java/com/github/lucapino/jira/GenerateReleaseNotesMojo.java:215-217 | elements that compare equal keep their input order |
| ReleaseNotes.Classify | src/main/java/com/github/lucapino/jira/GenerateReleaseNotesMojo.java:198-214 | "new feature", "task", "internaltask", "sub-task" go to add; "bug", "internalbug" to fix; every other type to update |
| ReleaseNotes.TypeNamesIgnoreCase | src/main/java/com/github/lucapino/jira/GenerateReleaseNotesMojo.java:201-206 | the type tests are `equalsIgnoreCase` against each listed name |
| ReleaseNotes.ClassifyIgnoresCase | src/main/java/com/github/lucapino/jira/GenerateReleaseNotesMojo.java:201-206 | type names differing only in case land in the same bucket |
| ReleaseNotes.BucketsPartition | src/main/java/com/github/lucapino/jira/GenerateReleaseNotesMojo.java:198-214 | every typed issue lands in exactly one bucket: contents and sizes add up to the input |
| ReleaseNotes.Distribute | src/main/java/com/github/lucapino/jira/GenerateReleaseNotesMojo.java:193-214 | the loop fails exactly when some issue has no type; otherwise each bucket holds its category's issues in input order |
| ReleaseNotes.ProcessIssues | src/main/java/com/github/lucapino/jira/GenerateReleaseNotesMojo.java:193-219 | fails exactly when some issue has no type; otherwise each of the three buckets is its category's issues sorted with the comparator |
| ReleaseNotes.FlattenPermutes | src/main/java/com/github/lucapino/jira/GenerateReleaseNotesMojo.java:124-127 | whatever order the map yields its values in, the flat list holds every input issue exactly once |
| ReleaseNotes.Output | src/main/java/com/github/lucapino/jira/GenerateReleaseNotesMojo.java:111-175 | no target file or no issue list returns early with its warning; an untyped issue fails; with a target file, an issue list and every issue typed the notes are always appended, and the parameters carry the flat list, the sorted buckets, URL, key, version and announce parameters (empty when unset), and the rendering is written between the optional before and after texts |
| SoapReleaseNotes.GetIssues | src/main/java/it/peng/maven/jira/GenerateReleaseNotesMojo.java:117-137 | the version is normalised and written back; a failed search gives null |
| SoapReleaseNotes.OutputOrdersByKey | src/main/java/it/peng/maven/jira/GenerateReleaseNotesMojo.java:155-159 | the notes list the issue views by non-decreasing number of the key each view reports, and views with the same number keep the search order |
| SoapReleaseNotes.Output | src/main/java/it/peng/maven/jira/GenerateReleaseNotesMojo.java:144-200 | early returns as in the REST variant, and a skip happens only there; the wrapped issues are sorted by key and the sort's failure is the output's; otherwise the notes are appended; parameters and before/after texts as configured |
| RestVersions.Compare | src/main/java/com/github/lucapino/jira/helpers/RemoteVersionComparator.java:26-32 | the comparator is the negated case-insensitive comparison: zero exactly for equal names, otherwise reversed |
| RestVersions.ProperPrefixSortsAfter | src/main/java/com/github/lucapino/jira/helpers/RemoteVersionComparator.java:30-32 | in descending order a name sorts after every longer name it prefixes |
| RestVersions.LeTotalPreorder | src/main/java/com/github/lucapino/jira/helpers/RemoteVersionComparator.java:26-32 | the comparator is a total preorder, so sorting with it is well defined |
| RestVersions.CalculateReleaseVersion | src/main/java/com/github/lucapino/jira/ReleaseVersionMojo.java:77-102 | the chosen version is the first in the project's own order (the sorted copy is never read) that is unreleased and, unless auto-discovery is on, has exactly the configured name; nothing is chosen exactly when no version qualifies; the payload carries that version's name and URI, released, not archived |
| RestVersions.DoExecute | src/main/java/com/github/lucapino/jira/ReleaseVersionMojo.java:63-70 | at most one update is sent, and exactly one when a version is selected |
| RestVersions.SelectionRespectsConfig | src/main/java/com/github/lucapino/jira/ReleaseVersionMojo.java:86-100 | without auto-discovery only a version with the configured name can be selected |
| SoapVersions.IsVersionAlreadyPresent | src/main/java/it/peng/maven/jira/ReleaseVersionMojo.java:106-120 | true exactly when the array is non-null and some name equals the candidate ignoring case |
| SoapVersions.CalculateLatestReleaseVersion | src/main/java/it/peng/maven/jira/ReleaseVersionMojo.java:88-97 | a null array throws; otherwise the array is sorted and the result is the first unreleased name in sorted order, null when all are released |
| SoapVersions.MarkVersionAsReleased | src/main/java/it/peng/maven/jira/ReleaseVersionMojo.java:133-158 | only the first unreleased version whose name matches ignoring case is set released; every other version is unchanged |
| SoapVersions.DoExecute | src/main/java/it/peng/maven/jira/ReleaseVersionMojo.java:62-80 | a failed fetch propagates; without auto-discovery the configured version is marked, and none when it is null |
| SoapVersions.AutoReleasesFirstUnreleased | src/main/java/it/peng/maven/jira/ReleaseVersionMojo.java:62-80 | with auto-discovery exactly the first unreleased version of the sorted array is marked released |
| SoapVersions.AllReleasedReleasesNothing | src/main/java/it/peng/maven/jira/ReleaseVersionMojo.java:88-97 | with every version released, auto-discovery marks nothing |
| SoapVersions.CreateNewVersion | src/main/java/it/peng/maven/jira/CreateNewVersionMojo.java:63-101 | the normalised candidate is created exactly when no existing name equals it ignoring case; otherwise only the warning is logged |
| SoapVersions.CreateIsIdempotent | src/main/java/it/peng/maven/jira/CreateNewVersionMojo.java:81-95 | running the mojo again after a creation creates nothing |
| Transitions.Decide | src/main/java/com/github/lucapino/jira/TransitionIssuesMojo.java:89-110 | no transitions means none is applied; otherwise the first transition whose name matches is applied, else a not-found warning; lookup and apply failures propagate |
| Transitions.AppliedIsFirstMatch | src/main/java/com/github/lucapino/jira/TransitionIssuesMojo.java:96-104 | an applied transition is the first one with the requested name |
| Transitions.TransitionIssues | src/main/java/com/github/lucapino/jira/TransitionIssuesMojo.java:89-110 | the outcomes are the per-issue decisions in order; the walk stops at the first failure |
| Transitions.DoExecute | src/main/java/com/github/lucapino/jira/TransitionIssuesMojo.java:70-79 | a missing transition only warns; the download's failure propagates; every downloaded issue has no remote handle, so each lookup is asked about a null issue |
| Mail.GetActualMailSender | src/main/java/it/peng/maven/jira/ReleaseNotesMailMojo.java:288-319 | a configured sender string wins and must parse. Otherwise a configured sender with an address is used. Otherwise the first developer is used when no id is requested, and the first developer with the requested id when one is. No developers, or no developer with that id, is an error |
| Mail.CheckedSender | src/main/java/it/peng/maven/jira/ReleaseNotesMailMojo.java:218-226 | sending proceeds exactly when the sender resolves with a non-empty address and some recipient list is non-null |
| Mail.SendMessage | src/main/java/it/peng/maven/jira/ReleaseNotesMailMojo.java:215-270 | every configured recipient list reaches the message in order, from the resolved sender |
| Mail.SendMessageAsWritten | src/main/java/it/peng/maven/jira/ReleaseNotesMailMojo.java:237-244 | the to-list is added only when a cc list exists, and a cc list without a to list throws |
| Mail.ToListDroppedWithoutCc | src/main/java/it/peng/maven/jira/ReleaseNotesMailMojo.java:237-244 | with a to list and a bcc list but no cc list, the message as written has no to-recipient |
| Mail.AgreeWithBothLists | src/main/java/it/peng/maven/jira/ReleaseNotesMailMojo.java:237-252 | with both to and cc lists configured, the written and the corrected behaviour agree |
| Mail.DoExecute | src/main/java/it/peng/maven/jira/ReleaseNotesMailMojo.java:168-208 | a target that is not a file fails without sending; otherwise the message is sent by `sendMessage` as written: it fails when the sender or recipient check fails or when a cc list comes without a to list, and the to recipients are addressed only when a cc list is set |
| Mail.DoExecuteCorrected | src/main/java/it/peng/maven/jira/ReleaseNotesMailMojo.java:199-204 | the same mojo with the corrected guard: a message is sent exactly when the target is a file and the sender and recipient checks pass, to every configured list |
| Mail.DoExecuteAgreesWithBothLists | src/main/java/it/peng/maven/jira/ReleaseNotesMailMojo.java:237-252 | with both a to and a cc list, the mojo as written and as corrected send the same message |
| Lifecycle.LoadUserCredentials | src/main/java/com/github/lucapino/jira/AbstractJiraMojo.java:158-174 | the server id defaults to the URL; only a missing user or password is filled, from the matching settings server; configured values are kept |
| Lifecycle.LoadUserCredentialsIdempotent | src/main/java/com/github/lucapino/jira/AbstractJiraMojo.java:158-174 | resolving twice equals resolving once |
| Lifecycle.InitJiraClient | src/main/java/com/github/lucapino/jira/AbstractJiraMojo.java:84-95 | with a client present nothing happens; otherwise credentials are resolved and used to connect, and a failure is rethrown |
| Lifecycle.Execute | src/main/java/com/github/lucapino/jira/AbstractJiraMojo.java:97-112 | skip logs and does nothing else; the goal runs only with a client; the client is closed exactly when the goal succeeds; a failed connection is logged twice, first its own exception (by `fail`) and then the wrapping `MojoFailureException`; a failing goal or close is logged last; no failure escapes |
| Lifecycle.ConnectedRunReusesClient | src/main/java/com/github/lucapino/jira/AbstractJiraMojo.java:84-95 | once connected, a later run reuses the client and creates none |
| Lifecycle.ReportGetClient | src/main/java/com/github/lucapino/jira/AbstractJiraMavenReport.java:140-151 | a connection failure is logged and yields null, leaving the cache empty so the next call retries |
| Lifecycle.ReportCredentialsAsWritten | src/main/java/com/github/lucapino/jira/AbstractJiraMavenReport.java:136-138 | resolving in the constructor leaves exactly the configured values |
| Lifecycle.ReportCredentials | src/main/java/com/github/lucapino/jira/AbstractJiraMavenReport.java:153-169 | resolving the injected fields fills a missing user from the matching settings server |
| Lifecycle.ReportIgnoresSettings | src/main/java/com/github/lucapino/jira/AbstractJiraMavenReport.java:136-138 | for a concrete configuration the settings user is ignored as written and used once corrected |
| ReportSink.Cell | src/main/java/com/github/lucapino/jira/helpers/AbstractIssuesReportGenerator.java:85-95 | one cell holding the text, or a non-breaking space for null |
| ReportSink.Icon | src/main/java/com/github/lucapino/jira/helpers/AbstractIssuesReportGenerator.java:159-187 | null shows the help icon with "?"; fix, update, add and remove show "images/<type>.gif" with the type as alternative text; any other type shows nothing |
| ReportSink.Header | src/main/java/com/github/lucapino/jira/helpers/AbstractIssuesReportGenerator.java:123-129 | the text inside exactly one table header cell |
| ReportSink.LinkElement | src/main/java/com/github/lucapino/jira/helpers/AbstractIssuesReportGenerator.java:131-137 | the text inside one link to the given target |
| ReportSink.CellLink | src/main/java/com/github/lucapino/jira/helpers/AbstractIssuesReportGenerator.java:97-103 | the link inside exactly one table cell |
| ReportSink.SectionTitle2Anchor | src/main/java/com/github/lucapino/jira/helpers/AbstractIssuesReportGenerator.java:150-157 | the second-level title, then an empty anchor named by the encoded id |
| ReportSink.ShowTypeIcon | src/main/java/com/github/lucapino/jira/helpers/AbstractIssuesReportGenerator.java:189-193 | the figure, titled with its alternative text, sits inside exactly one table cell |
| ReportSink.BeginReport | src/main/java/com/github/lucapino/jira/helpers/AbstractIssuesReportGenerator.java:57-83 | the title is the configured one or the bundle header; an author element appears exactly for a non-empty author; body and section are left open |
| ReportSink.EndReport | src/main/java/com/github/lucapino/jira/helpers/AbstractIssuesReportGenerator.java:105-113 | closes the section and the body, then flushes and closes the sink |
| ReportSink.ReportBalanced | src/main/java/com/github/lucapino/jira/helpers/AbstractIssuesReportGenerator.java:57-113 | a report framed by the begin and end calls around a balanced body is balanced and ends with flush and close |
| ReportSink.NestAppend | src/main/java/com/github/lucapino/jira/helpers/AbstractIssuesReportGenerator.java:57-113 | replaying a concatenated trace replays its parts in turn |

## Left out

- **Logging, timestamps and the file system.**
  - Only some log output is modelled:
    - the skip message and the error logs of the REST mojo lifecycle (`Lifecycle.Execute`), including the two errors of a failed connection;
    - the error log of the report's `getClient` (`Lifecycle.ReportGetClient`);
    - the warnings of the SOAP downloader, of the transition decision and of an already existing SOAP version.
  - Info and debug messages are not modelled, and neither is the SOAP release mojo printing its own field.
  - The created and updated dates are not modelled. This includes the `NullPointerException` that both `fillIssue` methods would raise on a null created or updated date. The REST one dereferences both dates at IssuesDownloader.java:165 and :178, and the SOAP one does the same when it copies them.
  - The release date is not modelled. The REST payload carries `new DateTime()`, and the SOAP mojo calls `setReleaseDate` on the version it marks.
  - Temporary template copies, appending writers and the `isFile` test are not modelled. The `isFile` test is a boolean parameter of `Mail.DoExecute`.
- **Transport and login.** The HTTP and SOAP transport and the login (both `JiraClient` classes) are not modelled. A connection is an outcome value.
- **Mail delivery.** The mail mojo's own input and output are not modelled:
  - reading the announcement file into the message content; its text is the parameter `content`, and a read failure is not modelled;
  - the SMTP send, whose `IOException` or `MailSenderException` the code turns into a `MojoExecutionException`; the assembled message is the outcome.
- **The SOAP `getClient` credentials.** They come from the wagon manager's authentication info, which is not part of this model. The connection outcome is a parameter.
- **Template evaluation.** The Velocity template evaluation (`TemplateEvaluator`) is a function of the parameter record.
- **Comparators with no source here.**
  - The REST issue comparator and the SOAP project's version comparator are parameters.
  - `Sorting.SortBy` models the sort as a stable insertion sort. `Collections.sort` and `Arrays.sort` call the comparator in a different order. Whenever the comparator is a total preorder that never throws, the result is the same.
  - The comparator parameters are assumed to be such total preorders. For any other comparator, Java's merge sort or TimSort may produce a different permutation or throw `IllegalArgumentException`, and the model does not cover that. The two lines below name the members this affects.
  - The SOAP issue comparator does throw, on a key that does not parse. It is not a parameter: `IssueOrder.SortIssues` models its failure.
- **String and number semantics.**
  - `WordUtils.capitalize`, `equalsIgnoreCase` and `compareToIgnoreCase` have ASCII semantics. There is no Unicode case mapping.
  - `MessageFormat.format` is modelled only for literal text, `''`, `{0}` and `{1}`. Outside that subset `Text.Format` answers `None`, and both `getIssueList` models then report a rejected template. Three kinds of template that `MessageFormat` accepts are rejected this way:
    - a quoted section such as `'{0}'`, which Java renders as the literal `{0}`;
    - an argument index above 1 such as `{2}`, which Java leaves as literal text;
    - a format type such as `{0,number}`.
  - Only malformed braces or an unparsable index make Java throw. So the model rejects more templates than the plugin does, and it never searches with those queries.
  - `IssueOrder.ParseLong` accepts ASCII digits only. Java's `Long.valueOf` also accepts other Unicode decimal digits, such as Arabic-Indic or fullwidth ones. So a key whose number is written in Arabic-Indic digits sorts in Java but makes the model's comparator fail.
- **Null configuration.** A null release version, final name, template or project key, which would throw a `NullPointerException`, is not modelled. These fields are plain strings.
- **Failures of the final remote calls.** A failure of the remote `updateVersion`, `addVersion`, `releaseVersion` or `progressWorkflowAction` call after the decision is not modelled. The outcome records which call would be made.
- ReleaseNotes.ProcessIssues: equates Java's sort of each bucket with `Sorting.SortBy` for every comparator parameter. This is faithful only for comparators that are total preorders and never throw.
- SoapVersions.CalculateLatestReleaseVersion: equates `Arrays.sort` with `Sorting.SortBy` for every comparator parameter. This is faithful only under the same assumption.
- **Excluded sources.** The following are not part of this model:
  - both `CreateReportMojo` files, which are wiring only;
  - the SOAP `TransitionIssuesMojo`, which only loops remote calls;
  - the SOAP `AbstractJiraMojo`, which has the same shape as the REST one;
  - `IssuesReportHelper` and `IssuesReportGenerator`.
- **The execution-root check.** The `runOnlyAtExecutionRoot` check of the REST release-notes mojo depends on the Maven session, which is not part of this model.
- **`VersionHolder`.** It is a plain pair, and is inlined in `RestVersions`.
- **Report title anchor.** `ReportSink.BeginReport` states the title and author choice and the nesting. The anchor id is only the parameter `encodeId` applied to the title.

## Findings

| source | as written | input that shows it | evidently intended | confidence | as-written member | corrected member |
|---|---|---|---|---|---|---|
| src/main/java/it/peng/maven/jira/ReleaseNotesMailMojo.java:237-244 | the to-addresses are added only under a test of the cc list | to = ["dev@example.org"], bcc = ["audit@example.org"], no cc list: the mail goes to nobody in To; with a cc list but no to list, iterating the null to list throws | the to-addresses guarded by their own null test | high; not executed | Mail.SendMessageAsWritten, Mail.ToListDroppedWithoutCc, Mail.CcWithoutToThrows, Mail.DoExecute | Mail.SendMessage, Mail.DoExecuteCorrected |
| src/main/java/com/github/lucapino/jira/AbstractJiraMavenReport.java:136-138 | credentials are resolved in the constructor, before Maven injects the report's fields, so URL, settings and user are all still null | user unset, and a settings server whose id is the URL and which holds user "builder": the report connects without a user | resolve the credentials after injection, as the mojo does before connecting | medium; not executed | Lifecycle.ReportCredentialsAsWritten, Lifecycle.ReportIgnoresSettings | Lifecycle.ReportCredentials |

=== FILE: issue_model.dfy ===
/** The issue record the REST downloader fills: a bean whose scalar fields
    start out null and whose three list fields are created lazily by their
    first `add`. */
module IssueModel {
  import opened Wrappers

  /** The opaque handle of the remote issue a record was built from. */
  datatype RemoteRef = RemoteRef(self: string)

  datatype JiraIssue = JiraIssue(
    assignee: Option<string>,
    comments: Option<seq<string>>,
    components: Option<seq<string>>,
    fixVersions: Option<seq<string>>,
    id: Option<string>,
    key: Option<string>,
    link: Option<string>,
    priority: Option<string>,
    reporter: Option<string>,
    resolution: Option<string>,
    status: Option<string>,
    summary: Option<string>,
    issueType: Option<string>,
    remoteIssue: Option<RemoteRef>)

  /** The string fields that have a plain setter and getter. */
  datatype Field = Assignee | Id | Key | Link | Priority | Reporter | Resolution | Status | Summary | Type

  /** The list fields that only grow through `addComment`, `addComponent`
      and `addFixVersion`. */
  datatype ListField = Comments | Components | FixVersions

  function Get(i: JiraIssue, f: Field): Option<string>
  {
    match f
    case Assignee => i.assignee
    case Id => i.id
    case Key => i.key
    case Link => i.link
    case Priority => i.priority
    case Reporter => i.reporter
    case Resolution => i.resolution
    case Status => i.status
    case Summary => i.summary
    case Type => i.issueType
  }

  function GetList(i: JiraIssue, f: ListField): Option<seq<string>>
  {
    match f
    case Comments => i.comments
    case Components => i.components
    case FixVersions => i.fixVersions
  }

  /** The scalar fields and the remote handle agree. */
  predicate SameScalars(a: JiraIssue, b: JiraIssue) {
    (forall f: Field :: Get(a, f) == Get(b, f)) && a.remoteIssue == b.remoteIssue
  }

  /** A freshly constructed record: every field null. */
  function New(): (r: JiraIssue)
    ensures forall f: Field :: Get(r, f) == None
    ensures forall f: ListField :: GetList(r, f) == None
    ensures r.remoteIssue == None
  {
    JiraIssue(None, None, None, None, None, None, None, None, None, None, None, None, None, None)
  }

  /** The setter of field `f` (a null argument is `None`). */
  function Set(i: JiraIssue, f: Field, v: Option<string>): (r: JiraIssue)
    ensures Get(r, f) == v
    ensures forall g: Field :: g != f ==> Get(r, g) == Get(i, g)
    ensures forall g: ListField :: GetList(r, g) == GetList(i, g)
    ensures r.remoteIssue == i.remoteIssue
  {
    match f
    case Assignee => i.(assignee := v)
    case Id => i.(id := v)
    case Key => i.(key := v)
    case Link => i.(link := v)
    case Priority => i.(priority := v)
    case Reporter => i.(reporter := v)
    case Resolution => i.(resolution := v)
    case Status => i.(status := v)
    case Summary => i.(summary := v)
    case Type => i.(issueType := v)
  }

  /** The browse link of an issue. */
  function IssueLink(baseUrl: string, key: string): string {
    baseUrl + "/browse/" + key
  }

  /** The guarded setter call `if (v != null) setX(v)`. */
  function SetIfPresent(i: JiraIssue, f: Field, v: Option<string>): (r: JiraIssue)
    ensures Get(r, f) == (if v.Some? then v else Get(i, f))
    ensures forall g: Field :: g != f ==> Get(r, g) == Get(i, g)
    ensures forall g: ListField :: GetList(r, g) == GetList(i, g)
    ensures r.remoteIssue == i.remoteIssue
  {
    if v.Some? then Set(i, f, v) else i
  }

  function SetRemoteIssue(i: JiraIssue, r: Option<RemoteRef>): (o: JiraIssue)
    ensures o.remoteIssue == r
    ensures forall g: Field :: Get(o, g) == Get(i, g)
    ensures forall g: ListField :: GetList(o, g) == GetList(i, g)
  {
    i.(remoteIssue := r)
  }

  /** `addComment`, `addComponent` or `addFixVersion`: create the list when
      it is still null, then append `v` at its end. */
  function Add(i: JiraIssue, f: ListField, v: string): (r: JiraIssue)
    ensures GetList(r, f) == Some(GetList(i, f).GetOr([]) + [v])
    ensures forall g: ListField :: g != f ==> GetList(r, g) == GetList(i, g)
    ensures SameScalars(r, i)
  {
    var grown := Some(GetList(i, f).GetOr([]) + [v]);
    match f
    case Comments => i.(comments := grown)
    case Components => i.(components := grown)
    case FixVersions => i.(fixVersions := grown)
  }

  /** One `add` per value, in order: the list stays null when there is
      nothing to add. */
  function AddAll(i: JiraIssue, f: ListField, vs: seq<string>): (r: JiraIssue)
    ensures GetList(r, f) == if |vs| == 0 then GetList(i, f) else Some(GetList(i, f).GetOr([]) + vs)
    ensures forall g: ListField :: g != f ==> GetList(r, g) == GetList(i, g)
    ensures SameScalars(r, i)
    decreases |vs|
  {
    if |vs| == 0 then i
    else
      var i' := Add(i, f, vs[0]);
      var r := AddAll(i', f, vs[1..]);
      assert GetList(i', f).GetOr([]) == GetList(i, f).GetOr([]) + [vs[0]];
      assert [vs[0]] + vs[1..] == vs;
      assert GetList(i, f).GetOr([]) + [vs[0]] + vs[1..] == GetList(i, f).GetOr([]) + vs;
      assert |vs| == 1 ==> GetList(i', f).GetOr([]) + vs[1..] == GetList(i', f).GetOr([]);
      assert GetList(r, f) == Some(GetList(i', f).GetOr([]) + vs[1..]);
      r
  }

  /** A call on the record, for reasoning about call sequences. */
  datatype Call = SetCall(field: Field, value: Option<string>) | AddCall(list: ListField, item: string)

  function Apply(i: JiraIssue, c: Call): JiraIssue
  {
    match c
    case SetCall(f, v) => Set(i, f, v)
    case AddCall(f, v) => Add(i, f, v)
  }

  function ApplyAll(i: JiraIssue, cs: seq<Call>): JiraIssue
    decreases |cs|
  {
    if |cs| == 0 then i else ApplyAll(Apply(i, cs[0]), cs[1..])
  }

  /** The values added to list `f`, in call order. */
  function Added(cs: seq<Call>, f: ListField): seq<string>
    decreases |cs|
  {
    if |cs| == 0 then []
    else (if cs[0].AddCall? && cs[0].list == f then [cs[0].item] else []) + Added(cs[1..], f)
  }

  /** The value of the last setter call on `f`, if any. */
  function LastSet(cs: seq<Call>, f: Field, otherwise: Option<string>): Option<string>
    decreases |cs|
  {
    if |cs| == 0 then otherwise
    else LastSet(cs[1..], f, if cs[0].SetCall? && cs[0].field == f then cs[0].value else otherwise)
  }

  /** After any call sequence, a list holds exactly the values added to it,
      in order, and stays null until the first add; each getter returns the
      last value its setter received. */
  lemma {:induction false} CallSequence(i: JiraIssue, cs: seq<Call>, f: ListField, g: Field)
    ensures GetList(ApplyAll(i, cs), f)
            == if |Added(cs, f)| == 0 then GetList(i, f) else Some(GetList(i, f).GetOr([]) + Added(cs, f))
    ensures Get(ApplyAll(i, cs), g) == LastSet(cs, g, Get(i, g))
    ensures ApplyAll(i, cs).remoteIssue == i.remoteIssue
    decreases |cs|
  {
    if |cs| != 0 {
      var i' := Apply(i, cs[0]);
      CallSequence(i', cs[1..], f, g);
      if cs[0].AddCall? && cs[0].list == f {
        assert GetList(i', f).GetOr([]) == GetList(i, f).GetOr([]) + [cs[0].item];
        assert Added(cs, f) == [cs[0].item] + Added(cs[1..], f);
        if |Added(cs[1..], f)| == 0 {
          assert GetList(i', f).GetOr([]) + Added(cs[1..], f) == GetList(i', f).GetOr([]);
        }
        assert GetList(ApplyAll(i, cs), f) == Some(GetList(i', f).GetOr([]) + Added(cs[1..], f));
        assert GetList(i, f).GetOr([]) + [cs[0].item] + Added(cs[1..], f)
               == GetList(i, f).GetOr([]) + ([cs[0].item] + Added(cs[1..], f));
      } else {
        assert Added(cs, f) == Added(cs[1..], f);
      }
    }
  }

  /** The lists of a fresh record stay null exactly until something is
      added to them. */
  lemma FreshListNullUntilAdded(cs: seq<Call>, f: ListField)
    ensures GetList(ApplyAll(New(), cs), f) == None <==> |Added(cs, f)| == 0
    ensures |Added(cs, f)| != 0 ==> GetList(ApplyAll(New(), cs), f) == Some(Added(cs, f))
  {
    CallSequence(New(), cs, f, Key);
    assert GetList(New(), f).GetOr([]) + Added(cs, f) == Added(cs, f);
  }
}

=== FILE: issue_order.dfy ===
/** The SOAP variant's `JiraIssueComparator`: issues are ordered by the
    number in the second '-'-separated segment of their keys, read as a
    Java `long`. A key without such a segment, or whose segment is not a
    `long`, makes the comparison throw. */
module IssueOrder {
  import opened Wrappers
  import opened Sorting

  const MaxLong: int := 0x7FFF_FFFF_FFFF_FFFF

  predicate IsDigit(c: char) { '0' <= c <= '9' }

  /** The text after the first '-' up to the next '-' or the end; empty when
      there is no '-'. An empty segment is exactly the case where `split`
      yields no second element or an empty one. */
  function Segment(key: string): (r: string)
    ensures '-' !in r
    ensures '-' !in key ==> r == []
    decreases |key|
  {
    if |key| == 0 then []
    else if key[0] == '-' then UpToDash(key[1..])
    else Segment(key[1..])
  }

  function UpToDash(s: string): (r: string)
    ensures '-' !in r
    ensures r <= s
    ensures '-' !in s ==> r == s
    decreases |s|
  {
    if |s| == 0 || s[0] == '-' then []
    else [s[0]] + UpToDash(s[1..])
  }

  /** The value of a run of decimal digits, most significant first. */
  function DigitsValue(s: string): (r: nat)
    requires forall k :: 0 <= k < |s| ==> IsDigit(s[k])
    decreases |s|
  {
    if |s| == 0 then 0
    else
      assert IsDigit(s[|s| - 1]);
      DigitsValue(s[..|s| - 1]) * 10 + (s[|s| - 1] as int - '0' as int)
  }

  predicate AllDigits(s: string) {
    forall k :: 0 <= k < |s| ==> IsDigit(s[k])
  }

  /** `Long.valueOf` on a text that holds no '-': an optional '+', then at
      least one decimal digit, with a value that fits in a `long`. */
  function ParseLong(s: string): (r: Option<int>)
    ensures r.Some? ==> 0 <= r.value <= MaxLong
    ensures r.Some? <==> (|s| > 0 && var d := if s[0] == '+' then s[1..] else s;
                            |d| > 0 && AllDigits(d) && DigitsValue(d) <= MaxLong)
  {
    var digits := if |s| > 0 && s[0] == '+' then s[1..] else s;
    if |digits| == 0 || !AllDigits(digits) then None
    else
      var v := DigitsValue(digits);
      if v <= MaxLong then Some(v) else None
  }

  /** The key number, or `None` where the comparator would throw. */
  function KeyNumber(key: string): Option<int>
  {
    ParseLong(Segment(key))
  }

  /** `compare` as `Long.compareTo`: exactly -1, 0 or 1. */
  function Compare(key1: string, key2: string): (r: Result<int, string>)
    ensures r.Ok? <==> KeyNumber(key1).Some? && KeyNumber(key2).Some?
    ensures r.Ok? ==> r.value in {-1, 0, 1}
    ensures r.Ok? ==> (r.value < 0 <==> KeyNumber(key1).value < KeyNumber(key2).value)
    ensures r.Ok? ==> (r.value == 0 <==> KeyNumber(key1).value == KeyNumber(key2).value)
    ensures r.Ok? ==> (r.value > 0 <==> KeyNumber(key1).value > KeyNumber(key2).value)
  {
    match (KeyNumber(key1), KeyNumber(key2))
    case (Some(n1), Some(n2)) => Ok(if n1 < n2 then -1 else if n1 == n2 then 0 else 1)
    case _ => Err("NumberFormatException")
  }

  lemma CompareReflexive(key: string)
    requires KeyNumber(key).Some?
    ensures Compare(key, key) == Ok(0)
  {
  }

  lemma CompareAntisymmetric(key1: string, key2: string)
    ensures Compare(key1, key2).Ok? <==> Compare(key2, key1).Ok?
    ensures Compare(key1, key2).Ok? ==> Compare(key1, key2).value == -Compare(key2, key1).value
  {
  }

  lemma CompareTransitive(key1: string, key2: string, key3: string)
    requires Compare(key1, key2).Ok? && Compare(key1, key2).value <= 0
    requires Compare(key2, key3).Ok? && Compare(key2, key3).value <= 0
    ensures Compare(key1, key3).Ok? && Compare(key1, key3).value <= 0
  {
  }

  /** The decimal text of a natural number. */
  function Decimal(n: nat): (r: string)
    ensures |r| > 0 && AllDigits(r)
    decreases n
  {
    if n < 10 then [('0' as int + n) as char]
    else Decimal(n / 10) + [('0' as int + n % 10) as char]
  }

  lemma {:induction false} DecimalValue(n: nat)
    ensures DigitsValue(Decimal(n)) == n
    decreases n
  {
    var s := Decimal(n);
    if n >= 10 {
      DecimalValue(n / 10);
      assert s[..|s| - 1] == Decimal(n / 10);
    }
  }

  /** `Long.valueOf` reads back the decimal text of any `long` value. */
  lemma ParseDecimal(n: nat)
    requires n <= MaxLong
    ensures ParseLong(Decimal(n)) == Some(n)
  {
    DecimalValue(n);
  }

  /** The segment of a key "PROJECT-N" is the digits of N, whatever the
      project, as long as the project holds no '-'. */
  lemma {:induction false} SegmentOfKey(project: string, number: string)
    requires '-' !in project && '-' !in number
    ensures Segment(project + "-" + number) == number
    decreases |project|
  {
    var key := project + "-" + number;
    if |project| == 0 {
      assert key[0] == '-' && key[1..] == number;
    } else {
      assert key[0] == project[0] && key[1..] == project[1..] + "-" + number;
      SegmentOfKey(project[1..], number);
    }
  }

  /** Keys of different projects with the same number compare equal. */
  lemma CrossProjectKeysTie(project1: string, project2: string, n: nat)
    requires '-' !in project1 && '-' !in project2 && n <= MaxLong
    ensures Compare(project1 + "-" + Decimal(n), project2 + "-" + Decimal(n)) == Ok(0)
  {
    assert '-' !in Decimal(n) by {
      assert forall k :: 0 <= k < |Decimal(n)| ==> IsDigit(Decimal(n)[k]);
    }
    SegmentOfKey(project1, Decimal(n));
    SegmentOfKey(project2, Decimal(n));
    ParseDecimal(n);
  }

  /** "At most" on key numbers. Where `Compare` answers it agrees with
      `compare(a, b) <= 0`; elsewhere it is only a filler that keeps the
      relation total. */
  predicate KeyLe(key1: string, key2: string) {
    KeyNumber(key1).GetOr(0) <= KeyNumber(key2).GetOr(0)
  }

  lemma KeyLeAgrees(key1: string, key2: string)
    requires Compare(key1, key2).Ok?
    ensures KeyLe(key1, key2) <==> Compare(key1, key2).value <= 0
  {
  }

  /** The comparator lifted to elements that carry a key. */
  function ByKey<T>(key: T -> string): (T, T) -> bool
  {
    (a: T, b: T) => KeyLe(key(a), key(b))
  }

  lemma ByKeyTotalPreorder<T(!new)>(key: T -> string)
    ensures TotalPreorder(ByKey(key))
  {
    var le := ByKey(key);
    forall a: T, b: T, c: T ensures TransitiveAt(le, a, b, c) {
    }
  }

  predicate AllKeysParse<T>(xs: seq<T>, key: T -> string) {
    forall k :: 0 <= k < |xs| ==> KeyNumber(key(xs[k])).Some?
  }

  /** `Collections.sort(list, new JiraIssueComparator())`: a list of fewer
      than two elements is left as it is without a comparison; otherwise
      every element is compared, so one bad key makes the sort throw, and a
      sort that returns is a stable one under the key numbers. */
  function SortIssues<T>(xs: seq<T>, key: T -> string): (r: Result<seq<T>, string>)
    ensures r.Ok? <==> |xs| < 2 || AllKeysParse(xs, key)
    ensures r.Ok? ==> multiset(r.value) == multiset(xs)
  {
    if |xs| < 2 then Ok(xs)
    else if AllKeysParse(xs, key) then Ok(SortBy(xs, ByKey(key)))
    else Err("NumberFormatException")
  }

  /** A sort that returns lists the issues by non-decreasing key number, and
      issues with the same number keep their input order. */
  lemma SortIssuesOrdered<T(!new)>(xs: seq<T>, key: T -> string, x: T)
    requires SortIssues(xs, key).Ok?
    ensures var ys := SortIssues(xs, key).value;
            forall i, j :: 0 <= i < j < |ys| ==> KeyNumber(key(ys[i])).GetOr(0) <= KeyNumber(key(ys[j])).GetOr(0)
    ensures Equivalents(SortIssues(xs, key).value, x, ByKey(key)) == Equivalents(xs, x, ByKey(key))
  {
    ByKeyTotalPreorder(key);
    if |xs| >= 2 {
      SortBySorted(xs, ByKey(key));
      SortByStable(xs, x, ByKey(key));
    }
  }
}

=== FILE: lazy_client.dfy ===
/** The lazily created tracker client shared by the SOAP downloader
    (`getClient`), the REST mojo (`initJiraClient`) and the REST report
    (`getClient`): a cached client is reused, otherwise one connection
    attempt is made and kept only when it succeeds. What happens to the
    failure (thrown, or logged and turned into null) is left to each caller. */
module LazyClient {
  import opened Wrappers

  datatype Obtained<C> = Obtained(cache: Option<C>, client: Result<C, string>)

  function Obtain<C>(cache: Option<C>, connect: Result<C, string>): (r: Obtained<C>)
    ensures cache.Some? ==> r == Obtained(cache, Ok(cache.value))
    ensures cache.None? ==> r.client == connect
    ensures r.client.Ok? <==> r.cache.Some?
    ensures r.client.Ok? ==> r.cache == Some(r.client.value)
  {
    match cache
    case Some(c) => Obtained(cache, Ok(c))
    case None =>
      match connect
      case Ok(c) => Obtained(Some(c), connect)
      case Err(_) => Obtained(None, connect)
  }

  /** After a successful call the next one returns the same client, whatever
      the next connection attempt would have produced: at most one client
      is created. After a failed call nothing is cached and the next call
      tries again. */
  lemma ConnectsAtMostOnce<C>(cache: Option<C>, first: Result<C, string>, second: Result<C, string>)
    ensures Obtain(cache, first).client.Ok? ==>
              Obtain(Obtain(cache, first).cache, second) == Obtain(cache, first)
    ensures Obtain(cache, first).client.Err? ==>
              Obtain(Obtain(cache, first).cache, second) == Obtain(None, second)
  {
  }
}

=== FILE: lifecycle.dfy ===
/** The REST mojo and report plumbing: credential resolution from the
    Maven settings, the `execute` lifecycle of every mojo (skip, lazily
    connect, run, close only on success, log and swallow every failure)
    and the report's error-swallowing `getClient`. The connection, the
    goal's own work and the closing of the client are parameters. */
module Lifecycle {
  import opened Wrappers
  import opened LazyClient

  /** A `<server>` entry of settings.xml. */
  datatype Server = Server(id: Option<string>, username: Option<string>, password: Option<string>)

  /** The credential fields of a mojo or report; `None` is null. */
  datatype Credentials = Credentials(serverId: Option<string>, user: Option<string>, password: Option<string>)

  /** `Settings.getServer`: the first server whose id equals the requested
      one; nothing for a null id. */
  function GetServer(servers: seq<Server>, id: Option<string>): (r: Option<Server>)
    ensures id.None? ==> r.None?
    ensures r.Some? ==> exists k :: 0 <= k < |servers| && servers[k] == r.value
                               && forall j :: 0 <= j < k ==> servers[j].id != id
    ensures r.Some? ==> r.value in servers && r.value.id == id
    ensures r.None? && id.Some? ==> forall k :: 0 <= k < |servers| ==> servers[k].id != id
    decreases |servers|
  {
    if id.None? || |servers| == 0 then None
    else if servers[0].id == id then Some(servers[0])
    else GetServer(servers[1..], id)
  }

  /** `loadUserCredentials`: the server id defaults to the tracker URL;
      when a user or password is missing and settings are present, the
      missing ones are filled from the matching server entry. A configured
      value is never overwritten. */
  function LoadUserCredentials(c: Credentials, url: Option<string>, settings: Option<seq<Server>>): (r: Credentials)
    ensures r.serverId == (if c.serverId.Some? then c.serverId else url)
    ensures c.user.Some? ==> r.user == c.user
    ensures c.password.Some? ==> r.password == c.password
    ensures settings.None? || (c.user.Some? && c.password.Some?) ==> r.user == c.user && r.password == c.password
    ensures settings.Some? && GetServer(settings.value, r.serverId).None? ==> r.user == c.user && r.password == c.password
    ensures settings.Some? && GetServer(settings.value, r.serverId).Some? ==>
              && (c.user.None? ==> r.user == GetServer(settings.value, r.serverId).value.username)
              && (c.password.None? ==> r.password == GetServer(settings.value, r.serverId).value.password)
  {
    var serverId := if c.serverId.Some? then c.serverId else url;
    var c' := c.(serverId := serverId);
    if (c.user.None? || c.password.None?) && settings.Some? then
      match GetServer(settings.value, serverId)
      case None => c'
      case Some(server) =>
        c'.(user := if c.user.None? then server.username else c.user,
            password := if c.password.None? then server.password else c.password)
    else c'
  }

  /** Resolving twice changes nothing more than resolving once. */
  lemma LoadUserCredentialsIdempotent(c: Credentials, url: Option<string>, settings: Option<seq<Server>>)
    ensures LoadUserCredentials(LoadUserCredentials(c, url, settings), url, settings) == LoadUserCredentials(c, url, settings)
  {
  }

  /** What a mojo run leaves in its log and on the server, in order. An
      `ErrorLogged` carries the message of the exception that was logged. */
  datatype Event =
    | SkipLogged
    | ClientCreated
    | GoalRan
    | ClientClosed
    | ErrorLogged(message: string)

  datatype MojoState<C> = MojoState(client: Option<C>, credentials: Credentials)

  /** The goal's own work (`doExecute`) and the closing of the client. */
  datatype Hooks<!C> = Hooks(
    connect: Credentials -> Result<C, string>,
    goal: C -> Result<(), string>,
    close: C -> Result<(), string>)

  /** `initJiraClient`: with no client yet, resolve the credentials, then
      connect with them; a failure is rethrown. */
  function InitJiraClient<C>(s: MojoState<C>, url: Option<string>, settings: Option<seq<Server>>,
                             connect: Credentials -> Result<C, string>): (r: (MojoState<C>, Result<C, string>))
    ensures s.client.Some? ==> r == (s, Ok(s.client.value))
    ensures s.client.None? ==>
              var creds := LoadUserCredentials(s.credentials, url, settings);
              && r.0.credentials == creds
              && r.1 == connect(creds)
              && r.0.client == (if connect(creds).Ok? then Some(connect(creds).value) else None)
  {
    if s.client.Some? then (s, Ok(s.client.value))
    else
      var creds := LoadUserCredentials(s.credentials, url, settings);
      var obtained := Obtain(None, connect(creds));
      (MojoState(obtained.cache, creds), obtained.client)
  }

  /** The message of the `MojoFailureException` that `initJiraClient`
      builds through `fail` when the connection fails. */
  const ConnectFailure: string := "Unable to connect to JIRA server"

  /** `execute`. It never fails: every exception is logged. A failed
      connection is logged twice: `fail` logs the connection's own
      exception, then `execute` logs the `MojoFailureException` wrapping
      it. */
  function Execute<C>(skip: bool, s: MojoState<C>, url: Option<string>, settings: Option<seq<Server>>,
                      hooks: Hooks<C>): (r: (MojoState<C>, seq<Event>))
    ensures skip ==> r == (s, [SkipLogged])
    ensures !skip && s.client.Some? ==> ClientCreated !in r.1
    ensures !skip ==> var init := InitJiraClient(s, url, settings, hooks.connect);
              && r.0 == init.0
              && (init.1.Err? ==> GoalRan !in r.1 && ClientClosed !in r.1)
              && (init.1.Err? ==> r.1 == [ErrorLogged(init.1.error), ErrorLogged(ConnectFailure)])
              && (init.1.Ok? ==> (|r.1| > 0 && r.1[|r.1| - 1].ErrorLogged? <==>
                                  hooks.goal(init.1.value).Err? || hooks.close(init.1.value).Err?))
              && (init.1.Ok? ==>
                    GoalRan in r.1 && (ClientClosed in r.1 <==> hooks.goal(init.1.value).Ok?))
  {
    if skip then (s, [SkipLogged])
    else
      var init := InitJiraClient(s, url, settings, hooks.connect);
      var created := if s.client.None? && init.1.Ok? then [ClientCreated] else [];
      match init.1
      case Err(e) => (init.0, [ErrorLogged(e), ErrorLogged(ConnectFailure)])
      case Ok(client) =>
        match hooks.goal(client)
        case Err(e) => (init.0, created + [GoalRan, ErrorLogged(e)])
        case Ok(_) =>
          match hooks.close(client)
          case Err(e) => (init.0, created + [GoalRan, ClientClosed, ErrorLogged(e)])
          case Ok(_) => (init.0, created + [GoalRan, ClientClosed])
  }

  /** The client is created at most once over any number of runs: once a
      run has connected, later runs reuse that client and the
      credentials are not resolved again. */
  lemma ConnectedRunReusesClient<C>(s: MojoState<C>, url: Option<string>, settings: Option<seq<Server>>,
                                    first: Hooks<C>, second: Hooks<C>)
    requires InitJiraClient(s, url, settings, first.connect).1.Ok?
    ensures var after := Execute(false, s, url, settings, first).0;
            && after.client == Some(InitJiraClient(s, url, settings, first.connect).1.value)
            && Execute(false, after, url, settings, second).0 == after
            && ClientCreated !in Execute(false, after, url, settings, second).1
  {
  }

  /** The report's `getClient`: like `initJiraClient` but a failure is only
      logged and null is returned, so the next call tries again. The report
      does not resolve credentials here. */
  function ReportGetClient<C>(cache: Option<C>, connect: Result<C, string>): (r: (Option<C>, Option<C>, seq<Event>))
    ensures r.0 == Obtain(cache, connect).cache
    ensures r.1 == r.0
    ensures r.1.None? <==> cache.None? && connect.Err?
    ensures r.2 == (if cache.None? && connect.Err? then [ErrorLogged(connect.error)] else [])
  {
    var obtained := Obtain(cache, connect);
    match obtained.client
    case Ok(c) => (obtained.cache, Some(c), [])
    case Err(e) => (None, None, [ErrorLogged(e)])
  }

  /** The report's credentials as written: `loadUserCredentials` runs from
      the constructor, when every field is still null; Maven injects the
      configured values only afterwards, so the settings are never read. */
  function ReportCredentialsAsWritten(configured: Credentials, url: Option<string>, settings: Option<seq<Server>>)
    : (r: Credentials)
    ensures r == configured
  {
    var constructed := LoadUserCredentials(Credentials(None, None, None), None, None);
    Credentials(
      if configured.serverId.Some? then configured.serverId else constructed.serverId,
      if configured.user.Some? then configured.user else constructed.user,
      if configured.password.Some? then configured.password else constructed.password)
  }

  /** The report's credentials once resolution runs on the injected
      fields, as in the mojo: settings fill what is missing. */
  function ReportCredentials(configured: Credentials, url: Option<string>, settings: Option<seq<Server>>)
    : (r: Credentials)
    ensures r.user.None? ==> configured.user.None?
    ensures configured.user.None? && settings.Some? && configured.serverId.Some?
            && GetServer(settings.value, configured.serverId).Some? ==>
              r.user == GetServer(settings.value, configured.serverId).value.username
  {
    LoadUserCredentials(configured, url, settings)
  }

  /** The discrepancy on a concrete configuration: no user configured, and
      a settings server matching the URL holds one. */
  lemma ReportIgnoresSettings()
    ensures var configured := Credentials(None, None, Some("secret"));
            var settings := Some([Server(Some("https://jira.example.org"), Some("builder"), Some("pw"))]);
            && ReportCredentialsAsWritten(configured, Some("https://jira.example.org"), settings).user == None
            && ReportCredentials(configured, Some("https://jira.example.org"), settings).user == Some("builder")
  {
    var settings := [Server(Some("https://jira.example.org"), Some("builder"), Some("pw"))];
    assert GetServer(settings, Some("https://jira.example.org")) == Some(settings[0]);
  }
}

=== FILE: mail.dfy ===
/** The SOAP variant's `ReleaseNotesMailMojo`: choose the sender, check the
    sender and the recipients, and assemble the announcement message.
    Address parsing is a parameter standing for `InternetAddress`; the SMTP
    transport is not modelled, so the message itself is the outcome. */
module Mail {
  import opened Wrappers

  datatype MailSender = MailSender(name: Option<string>, email: Option<string>)

  datatype Developer = Developer(id: Option<string>, name: Option<string>, email: Option<string>)

  datatype MailConfig = MailConfig(
    senderString: Option<string>,
    mailSender: Option<MailSender>,
    from: Option<seq<Developer>>,
    fromDeveloperId: Option<string>,
    toAddresses: Option<seq<string>>,
    ccAddresses: Option<seq<string>>,
    bccAddresses: Option<seq<string>>,
    subject: string)

  /** The exceptions of the mail mojo: an unparsable sender string, an
      empty developer list, an unknown developer id, a sender without an
      address, no recipient list at all, the to-list iteration on a null
      list, and a missing announcement file. */
  datatype MailError =
    | InvalidSenderString
    | NoDevelopers
    | MissingDeveloper(id: string)
    | InvalidSender
    | NoRecipients
    | NullToList
    | TemplateNotFound

  /** `new InternetAddress(s, true)` read as personal name and address;
      `None` is an `AddressException`. */
  type AddressParser = string -> Option<MailSender>

  /** `fromDeveloperId.equals(developer.getId())`. */
  predicate HasId(d: Developer, id: string) {
    d.id == Some(id)
  }

  function FirstWithId(devs: seq<Developer>, id: string): (r: Option<nat>)
    ensures r.Some? ==> r.value < |devs| && HasId(devs[r.value], id)
    ensures r.Some? ==> forall j :: 0 <= j < r.value ==> !HasId(devs[j], id)
    ensures r.None? ==> forall j :: 0 <= j < |devs| ==> !HasId(devs[j], id)
    decreases |devs|
  {
    if |devs| == 0 then None
    else if HasId(devs[0], id) then Some(0)
    else
      match FirstWithId(devs[1..], id)
      case None => None
      case Some(k) => Some(k + 1)
  }

  function AsSender(d: Developer): MailSender {
    MailSender(d.name, d.email)
  }

  /** The developer fallback of `getActualMailSender`: the list must not
      be empty; without an id to look for the first developer is the
      sender, otherwise the first developer with that id, which must
      exist. */
  function DeveloperSender(from: Option<seq<Developer>>, fromDeveloperId: Option<string>): (r: Result<MailSender, MailError>)
    ensures from.None? || |from.value| == 0 ==> r.Err?
    ensures from.Some? && |from.value| > 0 && fromDeveloperId.None? ==> r == Ok(AsSender(from.value[0]))
    ensures from.Some? && |from.value| > 0 && fromDeveloperId.Some? ==>
              var found := FirstWithId(from.value, fromDeveloperId.value);
              && (r.Ok? <==> found.Some?)
              && (r.Ok? ==> r.value == AsSender(from.value[found.value]))
  {
    if from.None? || |from.value| == 0 then
      Err(NoDevelopers)
    else if fromDeveloperId.None? then Ok(AsSender(from.value[0]))
    else
      match FirstWithId(from.value, fromDeveloperId.value)
      case None => Err(MissingDeveloper(fromDeveloperId.value))
      case Some(k) => Ok(AsSender(from.value[k]))
  }

  /** `getActualMailSender`: a sender string wins (and must parse); then a
      configured mail sender with an address; then the developers. */
  function GetActualMailSender(cfg: MailConfig, parse: AddressParser): (r: Result<MailSender, MailError>)
    ensures cfg.senderString.Some? ==>
              (r.Ok? <==> parse(cfg.senderString.value).Some?) && (r.Ok? ==> r.value == parse(cfg.senderString.value).value)
    ensures cfg.senderString.None? && cfg.mailSender.Some? && cfg.mailSender.value.email.Some? ==>
              r == Ok(cfg.mailSender.value)
    ensures cfg.senderString.None? && !(cfg.mailSender.Some? && cfg.mailSender.value.email.Some?) ==>
              r == DeveloperSender(cfg.from, cfg.fromDeveloperId)
  {
    if cfg.senderString.Some? then
      match parse(cfg.senderString.value)
      case None => Err(InvalidSenderString)
      case Some(ms) => Ok(ms)
    else if cfg.mailSender.Some? && cfg.mailSender.value.email.Some? then Ok(cfg.mailSender.value)
    else DeveloperSender(cfg.from, cfg.fromDeveloperId)
  }

  /** The assembled message; `content` is the text of the target file. */
  datatype Message = Message(
    subject: string,
    content: string,
    fromAddress: string,
    fromName: Option<string>,
    to: seq<string>,
    cc: seq<string>,
    bcc: seq<string>)

  function OrEmpty(s: Option<seq<string>>): seq<string> {
    if s.Some? then s.value else []
  }

  /** The checks `sendMessage` makes before building anything: a sender
      with a non-empty address, and at least one recipient list. */
  function CheckedSender(cfg: MailConfig, parse: AddressParser): (r: Result<MailSender, MailError>)
    ensures r.Ok? <==> GetActualMailSender(cfg, parse).Ok?
                       && GetActualMailSender(cfg, parse).value.email.Some?
                       && GetActualMailSender(cfg, parse).value.email.value != ""
                       && (cfg.toAddresses.Some? || cfg.ccAddresses.Some? || cfg.bccAddresses.Some?)
    ensures r.Ok? ==> r == GetActualMailSender(cfg, parse)
  {
    var ms :- GetActualMailSender(cfg, parse);
    if ms.email.None? || ms.email.value == "" then
      Err(InvalidSender)
    else if cfg.toAddresses.None? && cfg.bccAddresses.None? && cfg.ccAddresses.None? then
      Err(NoRecipients)
    else Ok(ms)
  }

  /** `sendMessage` as written: the to-addresses are added under a test of
      the cc list, so with no cc list they are dropped, and with a cc list
      but no to list the iteration throws. */
  function SendMessageAsWritten(cfg: MailConfig, parse: AddressParser, content: string): (r: Result<Message, MailError>)
    ensures r.Ok? <==> CheckedSender(cfg, parse).Ok? && (cfg.ccAddresses.Some? ==> cfg.toAddresses.Some?)
    ensures r.Ok? ==> r.value.to == (if cfg.ccAddresses.Some? then cfg.toAddresses.value else [])
    ensures r.Ok? ==> r.value.cc == OrEmpty(cfg.ccAddresses) && r.value.bcc == OrEmpty(cfg.bccAddresses)
  {
    var ms :- CheckedSender(cfg, parse);
    if cfg.ccAddresses.Some? && cfg.toAddresses.None? then Err(NullToList)
    else
      var to := if cfg.ccAddresses.Some? then cfg.toAddresses.value else [];
      Ok(Message(cfg.subject, content, ms.email.value, ms.name, to, OrEmpty(cfg.ccAddresses), OrEmpty(cfg.bccAddresses)))
  }

  /** `sendMessage` with the to-list guarded by its own null test: every
      configured list reaches the message in order, and a message is built
      exactly when the sender and recipient checks pass. */
  function SendMessage(cfg: MailConfig, parse: AddressParser, content: string): (r: Result<Message, MailError>)
    ensures r.Ok? <==> CheckedSender(cfg, parse).Ok?
    ensures r.Ok? ==> r.value.fromAddress == GetActualMailSender(cfg, parse).value.email.value
                      && r.value.fromAddress != ""
    ensures r.Ok? ==> r.value.to == OrEmpty(cfg.toAddresses)
                      && r.value.cc == OrEmpty(cfg.ccAddresses)
                      && r.value.bcc == OrEmpty(cfg.bccAddresses)
    ensures r.Ok? ==> |r.value.to| + |r.value.cc| + |r.value.bcc|
                      == |OrEmpty(cfg.toAddresses)| + |OrEmpty(cfg.ccAddresses)| + |OrEmpty(cfg.bccAddresses)|
  {
    var ms :- CheckedSender(cfg, parse);
    Ok(Message(cfg.subject, content, ms.email.value, ms.name,
               OrEmpty(cfg.toAddresses), OrEmpty(cfg.ccAddresses), OrEmpty(cfg.bccAddresses)))
  }

  /** The two agree whenever a cc list is configured alongside a to list,
      which is the only case the guard as written gets right. */
  lemma AgreeWithBothLists(cfg: MailConfig, parse: AddressParser, content: string)
    requires cfg.ccAddresses.Some? && cfg.toAddresses.Some?
    ensures SendMessageAsWritten(cfg, parse, content) == SendMessage(cfg, parse, content)
  {
  }

  /** The discrepancy, on a concrete configuration: a to list and a bcc list
      but no cc list. As written the to recipients are silently dropped. */
  lemma ToListDroppedWithoutCc(parse: AddressParser, content: string)
    requires parse("Release Bot <bot@example.org>") == Some(MailSender(Some("Release Bot"), Some("bot@example.org")))
    ensures var cfg := MailConfig(Some("Release Bot <bot@example.org>"), None, None, None,
                                  Some(["dev@example.org"]), None, Some(["audit@example.org"]), "Release");
            && SendMessageAsWritten(cfg, parse, content).Ok?
            && SendMessageAsWritten(cfg, parse, content).value.to == []
            && SendMessage(cfg, parse, content).value.to == ["dev@example.org"]
  {
  }

  /** The other half: a cc list without a to list makes the code as written
      throw, where the guarded version sends to the cc list. */
  lemma CcWithoutToThrows(parse: AddressParser, content: string)
    requires parse("Release Bot <bot@example.org>") == Some(MailSender(Some("Release Bot"), Some("bot@example.org")))
    ensures var cfg := MailConfig(Some("Release Bot <bot@example.org>"), None, None, None,
                                  None, Some(["team@example.org"]), None, "Release");
            && SendMessageAsWritten(cfg, parse, content).Err?
            && SendMessage(cfg, parse, content).Ok?
            && SendMessage(cfg, parse, content).value.cc == ["team@example.org"]
  {
  }

  /** `doExecute` after the mailer is configured: a missing announcement
      file is an error; otherwise the message is sent by `sendMessage` as
      written, so the to/cc guard shows in the outcome. */
  function DoExecute(cfg: MailConfig, parse: AddressParser, targetIsFile: bool, content: string): (r: Result<Message, MailError>)
    ensures !targetIsFile ==> r == Err(TemplateNotFound)
    ensures r.Ok? <==> targetIsFile && CheckedSender(cfg, parse).Ok? && (cfg.ccAddresses.Some? ==> cfg.toAddresses.Some?)
    ensures r.Ok? ==> r.value.to == (if cfg.ccAddresses.Some? then cfg.toAddresses.value else [])
                      && r.value.cc == OrEmpty(cfg.ccAddresses) && r.value.bcc == OrEmpty(cfg.bccAddresses)
  {
    if targetIsFile then SendMessageAsWritten(cfg, parse, content)
    else Err(TemplateNotFound)
  }

  /** `doExecute` with the corrected `sendMessage`: every configured list
      is addressed whenever the sender and recipient checks pass. */
  function DoExecuteCorrected(cfg: MailConfig, parse: AddressParser, targetIsFile: bool, content: string): (r: Result<Message, MailError>)
    ensures !targetIsFile ==> r == Err(TemplateNotFound)
    ensures r.Ok? <==> targetIsFile && CheckedSender(cfg, parse).Ok?
    ensures r.Ok? ==> r.value.to == OrEmpty(cfg.toAddresses)
                      && r.value.cc == OrEmpty(cfg.ccAddresses) && r.value.bcc == OrEmpty(cfg.bccAddresses)
  {
    if targetIsFile then SendMessage(cfg, parse, content)
    else Err(TemplateNotFound)
  }

  /** The mojo as written and as corrected differ exactly where the two
      `sendMessage` versions do: with both a to and a cc list they agree. */
  lemma DoExecuteAgreesWithBothLists(cfg: MailConfig, parse: AddressParser, targetIsFile: bool, content: string)
    requires cfg.ccAddresses.Some? && cfg.toAddresses.Some?
    ensures DoExecute(cfg, parse, targetIsFile, content) == DoExecuteCorrected(cfg, parse, targetIsFile, content)
  {
    AgreeWithBothLists(cfg, parse, content);
  }
}

=== FILE: release_notes.dfy ===
/** The REST `GenerateReleaseNotesMojo`: issues are grouped into the "add",
    "fix" and "update" buckets by their type, each bucket is sorted with
    the issue comparator, and the notes are rendered from a parameter map
    and appended to the target file between the optional before and after
    texts. The comparator, the template evaluation and the iteration order
    of the bucket map are parameters. */
module ReleaseNotes {
  import opened Wrappers
  import opened Text
  import opened IssueModel
  import opened Sorting

  datatype Category = Add | Fix | Update

  /** The bucket's key in the map handed to the template. */
  function Name(c: Category): string {
    match c
    case Add => "add"
    case Fix => "fix"
    case Update => "update"
  }

  /** The add types, matched on the lower-cased type name. */
  predicate IsAddType(t: string) {
    var l := LowerAll(t);
    l == "new feature" || l == "task" || l == "internaltask" || l == "sub-task"
  }

  /** The fix types, matched on the lower-cased type name. */
  predicate IsFixType(t: string) {
    var l := LowerAll(t);
    l == "bug" || l == "internalbug"
  }

  /** Matching the lower-cased name is `equalsIgnoreCase` against each of
      the type names the mojo lists. */
  lemma TypeNamesIgnoreCase(t: string)
    ensures IsAddType(t) <==> EqualsIgnoreCase(t, "new feature") || EqualsIgnoreCase(t, "task")
                              || EqualsIgnoreCase(t, "internaltask") || EqualsIgnoreCase(t, "sub-task")
    ensures IsFixType(t) <==> EqualsIgnoreCase(t, "bug") || EqualsIgnoreCase(t, "internalbug")
  {
    LowerAllKeepsLower("new feature");
    LowerAllKeepsLower("task");
    LowerAllKeepsLower("internaltask");
    LowerAllKeepsLower("sub-task");
    LowerAllKeepsLower("bug");
    LowerAllKeepsLower("internalbug");
  }

  lemma LowerAllKeepsLower(s: string)
    requires forall i :: 0 <= i < |s| ==> !IsAsciiUpper(s[i])
    ensures LowerAll(s) == s
  {
  }

  /** The classification of one issue type; every type lands somewhere. */
  function Classify(t: string): (r: Category)
    ensures r == Add <==> IsAddType(t)
    ensures r == Fix <==> !IsAddType(t) && IsFixType(t)
    ensures r == Update <==> !IsAddType(t) && !IsFixType(t)
  {
    if IsAddType(t) then Add else if IsFixType(t) then Fix else Update
  }

  /** Type names differing only in letter case land in the same bucket. */
  lemma ClassifyIgnoresCase(t: string, u: string)
    requires EqualsIgnoreCase(t, u)
    ensures Classify(t) == Classify(u)
  {
  }

  /** The bucket of an issue; `None` for an issue without a type, whose
      `getType().equalsIgnoreCase(...)` would throw. */
  function CategoryOf(i: JiraIssue): Option<Category> {
    if Get(i, Type).Some? then Some(Classify(Get(i, Type).value)) else None
  }

  predicate AllTyped(issues: seq<JiraIssue>) {
    forall k :: 0 <= k < |issues| ==> Get(issues[k], Type).Some?
  }

  /** The elements `cat` puts in category `c`, in input order. */
  function Group<T>(xs: seq<T>, cat: T -> Option<Category>, c: Category): (r: seq<T>)
    ensures |r| <= |xs|
    decreases |xs|
  {
    if |xs| == 0 then []
    else
      var last := xs[|xs| - 1];
      Group(xs[..|xs| - 1], cat, c) + (if cat(last) == Some(c) then [last] else [])
  }

  /** The issues of one category, in input order: the reference the bucket
      loop is checked against. */
  function Bucket(issues: seq<JiraIssue>, c: Category): seq<JiraIssue> {
    Group(issues, CategoryOf, c)
  }

  /** One more element extends exactly its own group. */
  lemma GroupSnoc<T>(xs: seq<T>, k: nat, cat: T -> Option<Category>, c: Category)
    requires k < |xs|
    ensures Group(xs[..k + 1], cat, c) == Group(xs[..k], cat, c) + (if cat(xs[k]) == Some(c) then [xs[k]] else [])
  {
    assert xs[..k + 1][..k] == xs[..k];
  }

  /** The three groups together, as a multiset. */
  function AllGroups<T>(xs: seq<T>, cat: T -> Option<Category>): multiset<T> {
    multiset(Group(xs, cat, Add)) + multiset(Group(xs, cat, Fix)) + multiset(Group(xs, cat, Update))
  }

  /** An element with a category adds itself to exactly one group. */
  lemma GroupsStep<T>(xs: seq<T>, cat: T -> Option<Category>)
    requires |xs| > 0 && cat(xs[|xs| - 1]).Some?
    ensures AllGroups(xs, cat) == AllGroups(xs[..|xs| - 1], cat) + multiset{xs[|xs| - 1]}
  {
    var front, last := xs[..|xs| - 1], xs[|xs| - 1];
    var m := multiset{last};
    var ga, gf, gu := Group(front, cat, Add), Group(front, cat, Fix), Group(front, cat, Update);
    match cat(last).value {
      case Add =>
        assert Group(xs, cat, Add) == ga + [last];
        assert Group(xs, cat, Fix) == gf && Group(xs, cat, Update) == gu;
        assert multiset(ga + [last]) == multiset(ga) + m;
      case Fix =>
        assert Group(xs, cat, Fix) == gf + [last];
        assert Group(xs, cat, Add) == ga && Group(xs, cat, Update) == gu;
        assert multiset(gf + [last]) == multiset(gf) + m;
      case Update =>
        assert Group(xs, cat, Update) == gu + [last];
        assert Group(xs, cat, Add) == ga && Group(xs, cat, Fix) == gf;
        assert multiset(gu + [last]) == multiset(gu) + m;
    }
  }

  /** When every element has a category, the three groups together hold
      exactly the input. */
  lemma {:induction false} GroupsPartition<T>(xs: seq<T>, cat: T -> Option<Category>)
    requires forall k :: 0 <= k < |xs| ==> cat(xs[k]).Some?
    ensures AllGroups(xs, cat) == multiset(xs)
    decreases |xs|
  {
    if |xs| != 0 {
      var front := xs[..|xs| - 1];
      forall k | 0 <= k < |front| ensures cat(front[k]).Some? {
        assert front[k] == xs[k];
      }
      GroupsPartition(front, cat);
      GroupsStep(xs, cat);
      assert xs == front + [xs[|xs| - 1]];
    }
  }

  /** Every typed issue is in exactly one bucket: the contents add up, and
      so do the sizes. */
  lemma BucketsPartition(issues: seq<JiraIssue>)
    requires AllTyped(issues)
    ensures multiset(Bucket(issues, Add)) + multiset(Bucket(issues, Fix)) + multiset(Bucket(issues, Update))
            == multiset(issues)
    ensures |Bucket(issues, Add)| + |Bucket(issues, Fix)| + |Bucket(issues, Update)| == |issues|
  {
    assert forall k :: 0 <= k < |issues| ==> CategoryOf(issues[k]).Some?;
    GroupsPartition(issues, CategoryOf);
    assert |multiset(Bucket(issues, Add))| == |Bucket(issues, Add)|;
    assert |multiset(Bucket(issues, Fix))| == |Bucket(issues, Fix)|;
    assert |multiset(Bucket(issues, Update))| == |Bucket(issues, Update)|;
    assert |multiset(issues)| == |issues|;
    var ma, mf, mu := multiset(Bucket(issues, Add)), multiset(Bucket(issues, Fix)), multiset(Bucket(issues, Update));
    assert |ma + mf + mu| == |ma| + |mf| + |mu|;
  }

  /** The buckets as `processIssues` leaves them, before sorting. */
  datatype Buckets = Buckets(add: seq<JiraIssue>, fix: seq<JiraIssue>, update: seq<JiraIssue>)

  function BucketOf(b: Buckets, c: Category): seq<JiraIssue> {
    match c
    case Add => b.add
    case Fix => b.fix
    case Update => b.update
  }

  /** Each bucket holds exactly its category's issues, in input order. */
  predicate Distributed(b: Buckets, issues: seq<JiraIssue>) {
    b.add == Bucket(issues, Add) && b.fix == Bucket(issues, Fix) && b.update == Bucket(issues, Update)
  }

  /** Each bucket holds its category's issues sorted with `le`. */
  predicate SortedBuckets(b: Buckets, issues: seq<JiraIssue>, le: (JiraIssue, JiraIssue) -> bool) {
    && b.add == SortBy(Bucket(issues, Add), le)
    && b.fix == SortBy(Bucket(issues, Fix), le)
    && b.update == SortBy(Bucket(issues, Update), le)
  }

  /** The classification loop of `processIssues`: each issue is appended to
      the list of its category. It throws on the first issue without a type. */
  method Distribute(issues: seq<JiraIssue>) returns (r: Result<Buckets, string>)
    ensures r.Ok? <==> AllTyped(issues)
    ensures r.Ok? ==> Distributed(r.value, issues)
  {
    var b := Buckets([], [], []);
    var k := 0;
    while k < |issues|
      invariant 0 <= k <= |issues|
      invariant forall j :: 0 <= j < k ==> Get(issues[j], Type).Some?
      invariant b.add == Bucket(issues[..k], Add)
      invariant b.fix == Bucket(issues[..k], Fix)
      invariant b.update == Bucket(issues[..k], Update)
      decreases |issues| - k
    {
      var issue := issues[k];
      GroupSnoc(issues, k, CategoryOf, Add);
      GroupSnoc(issues, k, CategoryOf, Fix);
      GroupSnoc(issues, k, CategoryOf, Update);
      match CategoryOf(issue) {
        case None =>
          assert !AllTyped(issues) by {
            assert Get(issues[k], Type).None?;
          }
          return Err("NullPointerException");
        case Some(Add) => b := b.(add := b.add + [issue]);
        case Some(Fix) => b := b.(fix := b.fix + [issue]);
        case Some(Update) => b := b.(update := b.update + [issue]);
      }
      k := k + 1;
    }
    assert issues[..k] == issues;
    return Ok(b);
  }

  /** `processIssues`: the bucket map, whose keys are always "add", "fix"
      and "update" (one field each here), every bucket sorted with the
      issue comparator `le`. */
  method ProcessIssues(issues: seq<JiraIssue>, le: (JiraIssue, JiraIssue) -> bool)
    returns (r: Result<Buckets, string>)
    ensures r.Ok? <==> AllTyped(issues)
    ensures r.Ok? ==> SortedBuckets(r.value, issues, le)
  {
    var distributed := Distribute(issues);
    if distributed.Err? {
      return Err(distributed.error);
    }
    var b := distributed.value;
    return Ok(Buckets(SortBy(b.add, le), SortBy(b.fix, le), SortBy(b.update, le)));
  }

  /** Each bucket comes out ordered under the comparator, when the
      comparator is a total preorder. */
  lemma BucketsSorted(issues: seq<JiraIssue>, le: (JiraIssue, JiraIssue) -> bool, c: Category)
    requires TotalPreorder(le)
    ensures SortedBy(SortBy(Bucket(issues, c), le), le)
  {
    SortBySorted(Bucket(issues, c), le);
  }

  /** The order in which the map's `values()` visits the buckets: each
      category once. */
  predicate IsKeyOrder(order: seq<Category>) {
    |order| == 3 && order[0] != order[1] && order[1] != order[2] && order[0] != order[2]
  }

  /** The flat "issues" list: the buckets concatenated in map iteration
      order. */
  function Flatten(b: Buckets, order: seq<Category>): (r: seq<JiraIssue>)
    requires IsKeyOrder(order)
    ensures |r| == |b.add| + |b.fix| + |b.update|
    ensures multiset(r) == multiset(b.add) + multiset(b.fix) + multiset(b.update)
  {
    var r := BucketOf(b, order[0]) + BucketOf(b, order[1]) + BucketOf(b, order[2]);
    assert multiset(r) == multiset(BucketOf(b, order[0])) + multiset(BucketOf(b, order[1])) + multiset(BucketOf(b, order[2]));
    r
  }

  /** Whatever order the map yields its values in, the flat list holds every
      input issue exactly once. */
  lemma FlattenPermutes(issues: seq<JiraIssue>, b: Buckets, le: (JiraIssue, JiraIssue) -> bool, order: seq<Category>)
    requires AllTyped(issues) && IsKeyOrder(order)
    requires SortedBuckets(b, issues, le)
    ensures multiset(Flatten(b, order)) == multiset(issues)
  {
    BucketsPartition(issues);
    assert BucketOf(b, Add) == b.add && BucketOf(b, Fix) == b.fix && BucketOf(b, Update) == b.update;
  }

  /** What one `println` sequence appends: the before text when set, the
      rendered content, the after text when set. */
  function Surround(before: Option<string>, content: string, after: Option<string>): (lines: seq<string>)
    ensures |lines| == 1 + (if before.Some? then 1 else 0) + (if after.Some? then 1 else 0)
    ensures before.Some? ==> lines[0] == before.value
    ensures lines[if before.Some? then 1 else 0] == content
    ensures after.Some? ==> lines[|lines| - 1] == after.value
  {
    (if before.Some? then [before.value] else []) + [content] + (if after.Some? then [after.value] else [])
  }

  datatype Config = Config(
    targetFile: Option<string>,
    beforeText: Option<string>,
    afterText: Option<string>,
    announceParameters: Option<map<string, string>>,
    jiraURL: string,
    jiraProjectKey: string,
    releaseVersion: string)

  /** `Skipped`: an early return with its warning. `Failed`: an exception
      out of `processIssues`. `Appended`: the parameters the template was
      evaluated with and the lines added to the target file. */
  datatype Outcome = Skipped(warning: string) | Failed(message: string) | Appended(params: Params, lines: seq<string>)

  /** The parameter map handed to the template: one field per key. */
  datatype Params = Params(
    issues: seq<JiraIssue>,
    issuesMap: Buckets,
    jiraURL: string,
    jiraProjectKey: string,
    releaseVersion: string,
    announceParameters: map<string, string>)

  /** `output`: with no target file or no issue list nothing is evaluated
      or written. Otherwise the template sees the flat list, the bucket map,
      the URL, the project key, the release version exactly as configured
      and the announce parameters (empty when unset), and its rendering is
      appended between the optional texts. */
  method Output(cfg: Config, issues: Option<seq<JiraIssue>>, le: (JiraIssue, JiraIssue) -> bool,
                order: seq<Category>, render: Params -> string)
    returns (r: Outcome)
    requires IsKeyOrder(order)
    ensures cfg.targetFile.None? ==> r == Skipped("No targetFile specified. Ignoring")
    ensures cfg.targetFile.Some? && issues.None? ==> r == Skipped("No issues found. File will not be generated.")
    ensures cfg.targetFile.Some? && issues.Some? ==> (r.Failed? <==> !AllTyped(issues.value))
    ensures r.Skipped? <==> cfg.targetFile.None? || issues.None?
    ensures cfg.targetFile.Some? && issues.Some? && AllTyped(issues.value) ==> r.Appended?
    ensures r.Appended? ==>
              var p := r.params;
              && issues.Some?
              && p.releaseVersion == cfg.releaseVersion
              && p.jiraURL == cfg.jiraURL && p.jiraProjectKey == cfg.jiraProjectKey
              && p.announceParameters == (if cfg.announceParameters.Some? then cfg.announceParameters.value else map[])
              && SortedBuckets(p.issuesMap, issues.value, le)
              && p.issues == Flatten(p.issuesMap, order)
              && multiset(p.issues) == multiset(issues.value)
              && r.lines == Surround(cfg.beforeText, render(p), cfg.afterText)
  {
    if cfg.targetFile.None? {
      return Skipped("No targetFile specified. Ignoring");
    }
    if issues.None? {
      return Skipped("No issues found. File will not be generated.");
    }
    var processed := ProcessIssues(issues.value, le);
    if processed.Err? {
      return Failed(processed.error);
    }
    var b := processed.value;
    var announce := if cfg.announceParameters.Some? then cfg.announceParameters.value else map[];
    var p := Params(Flatten(b, order), b, cfg.jiraURL, cfg.jiraProjectKey, cfg.releaseVersion, announce);
    FlattenPermutes(issues.value, b, le, order);
    return Appended(p, Surround(cfg.beforeText, render(p), cfg.afterText));
  }
}

=== FILE: report_sink.dfy ===
/** The Doxia sink calls of the issues report generator, modelled as the
    trace of events the generator appends to the sink. The bundle header
    and `HtmlTools.encodeId` are parameters. */
module ReportSink {
  import opened Wrappers

  /** The elements a sink can open and close. */
  datatype Tag = Head | Title | Author | Body | Section1 | SectionTitle1 | SectionTitle2
               | Anchor | Link | TableCell | TableHeaderCell

  datatype Event =
    | Open(tag: Tag)
    | OpenAnchor(name: string)
    | OpenLink(href: string)
    | Close(tag: Tag)
    | Text(text: string)
    | NonBreakingSpace
    | Figure(image: string, alt: string, title: string)
    | Flush
    | CloseSink

  /** The tag an event opens, if any. */
  function Opened(e: Event): Option<Tag> {
    match e
    case Open(t) => Some(t)
    case OpenAnchor(_) => Some(Anchor)
    case OpenLink(_) => Some(Link)
    case _ => None
  }

  /** One event against the stack of open elements (innermost last):
      `None` when it closes anything but the innermost open element. */
  function Step(e: Event, stack: seq<Tag>): Option<seq<Tag>> {
    if Opened(e).Some? then Some(stack + [Opened(e).value])
    else if e.Close? then
      if |stack| > 0 && stack[|stack| - 1] == e.tag then Some(stack[..|stack| - 1]) else None
    else Some(stack)
  }

  /** Replays `events` against a stack of open elements: the stack left at
      the end, or `None` at the first mismatched close. */
  function Nest(events: seq<Event>, stack: seq<Tag>): Option<seq<Tag>>
    decreases |events|
  {
    if |events| == 0 then Some(stack)
    else
      match Step(events[0], stack)
      case None => None
      case Some(next) => Nest(events[1..], next)
  }

  /** Unfolds `Nest` at a leading event. */
  lemma NestCons(e: Event, rest: seq<Event>, stack: seq<Tag>)
    ensures Nest([e] + rest, stack) == (if Step(e, stack).Some? then Nest(rest, Step(e, stack).value) else None)
  {
    assert ([e] + rest)[1..] == rest;
  }

  /** Every element the trace opens it also closes, innermost first. */
  predicate Balanced(events: seq<Event>) {
    Nest(events, []) == Some([])
  }

  /** Replaying a concatenation replays the parts one after the other. */
  lemma {:induction false} NestAppend(a: seq<Event>, b: seq<Event>, stack: seq<Tag>)
    ensures Nest(a + b, stack) == (if Nest(a, stack).Some? then Nest(b, Nest(a, stack).value) else None)
    decreases |a|
  {
    if |a| != 0 {
      assert (a + b)[0] == a[0] && (a + b)[1..] == a[1..] + b;
      if Step(a[0], stack).Some? {
        NestAppend(a[1..], b, Step(a[0], stack).value);
      }
    } else {
      assert a + b == b;
    }
  }

  /** A balanced piece leaves any surrounding nesting as it found it. */
  lemma {:induction false} BalancedAnywhere(events: seq<Event>, stack: seq<Tag>)
    requires Balanced(events)
    ensures Nest(events, stack) == Some(stack)
    decreases |events|
  {
    NestShift(events, [], stack);
    assert stack + [] == stack;
  }

  /** Replaying from a deeper stack replays the same way above it. */
  lemma {:induction false} NestShift(events: seq<Event>, stack: seq<Tag>, below: seq<Tag>)
    requires Nest(events, stack).Some?
    ensures Nest(events, below + stack) == Some(below + Nest(events, stack).value)
    decreases |events|
  {
    if |events| != 0 {
      var e := events[0];
      var bs := below + stack;
      if Opened(e).Some? {
        assert below + (stack + [Opened(e).value]) == bs + [Opened(e).value];
      } else if e.Close? {
        assert bs[|bs| - 1] == stack[|stack| - 1];
        assert bs[..|bs| - 1] == below + stack[..|stack| - 1];
      }
      assert Step(e, bs) == Some(below + Step(e, stack).value);
      NestShift(events[1..], Step(e, stack).value, below);
    }
  }

  /** An event that neither opens nor closes leaves the nesting alone. */
  lemma Plain(e: Event, stack: seq<Tag>)
    requires Opened(e).None? && !e.Close?
    ensures Nest([e], stack) == Some(stack)
  {
    NestCons(e, [], stack);
  }

  /** An element opened by `o`, holding a balanced `inner` and closed
      again, leaves the nesting as it found it. */
  lemma Wrapped(o: Event, inner: seq<Event>, stack: seq<Tag>)
    requires Opened(o).Some? && Nest(inner, stack + [Opened(o).value]) == Some(stack + [Opened(o).value])
    ensures Nest([o] + inner + [Close(Opened(o).value)], stack) == Some(stack)
  {
    var t := Opened(o).value;
    NestAppend([o] + inner, [Close(t)], stack);
    NestCons(o, inner, stack);
    NestCons(Close(t), [], stack + [t]);
    assert (stack + [t])[..|stack|] == stack;
  }

  /** `sinkCell`: the text, or a non-breaking space for null, in one cell. */
  function Cell(text: Option<string>): (r: seq<Event>)
    ensures Balanced(r)
    ensures |r| == 3 && r[0] == Open(TableCell) && r[2] == Close(TableCell)
    ensures text.Some? <==> r[1] == Text(text.GetOr(""))
    ensures text.None? <==> r[1] == NonBreakingSpace
  {
    var inner := match text case Some(t) => Text(t) case None => NonBreakingSpace;
    Plain(inner, [TableCell]);
    Wrapped(Open(TableCell), [inner], []);
    assert [Open(TableCell)] + [inner] + [Close(TableCell)] == [Open(TableCell), inner, Close(TableCell)];
    [Open(TableCell), inner, Close(TableCell)]
  }

  /** The image and alternative text of `sinkShowTypeIcon`. */
  function Icon(issueType: Option<string>): (r: (string, string))
    ensures issueType.None? ==> r == ("images/icon_help_sml.gif", "?")
    ensures issueType.Some? && issueType.value in {"fix", "update", "add", "remove"} ==>
              r == ("images/" + issueType.value + ".gif", issueType.value)
    ensures issueType.Some? && issueType.value !in {"fix", "update", "add", "remove"} ==> r == ("", "")
  {
    match issueType
    case None => ("images/icon_help_sml.gif", "?")
    case Some(t) =>
      if t in {"fix", "update", "add", "remove"} then ("images/" + t + ".gif", t)
      else ("", "")
  }

  /** `sinkShowTypeIcon`: the figure, titled with its alternative text,
      inside exactly one table cell. */
  function ShowTypeIcon(issueType: Option<string>): (r: seq<Event>)
    ensures Balanced(r)
    ensures r == [Open(TableCell), Figure(Icon(issueType).0, Icon(issueType).1, Icon(issueType).1), Close(TableCell)]
  {
    var (image, alt) := Icon(issueType);
    Plain(Figure(image, alt, alt), [TableCell]);
    Wrapped(Open(TableCell), [Figure(image, alt, alt)], []);
    assert [Open(TableCell)] + [Figure(image, alt, alt)] + [Close(TableCell)]
        == [Open(TableCell), Figure(image, alt, alt), Close(TableCell)];
    [Open(TableCell), Figure(image, alt, alt), Close(TableCell)]
  }

  /** `sinkSectionTitle1Anchor`: the title text, then an empty anchor
      named by the encoded id. */
  function SectionTitle1Anchor(text: string, anchor: string, encodeId: string -> string): (r: seq<Event>)
    ensures Balanced(r)
    ensures r == [Open(SectionTitle1), Text(text), Close(SectionTitle1), OpenAnchor(encodeId(anchor)), Close(Anchor)]
  {
    var heading := [Open(SectionTitle1)] + [Text(text)] + [Close(SectionTitle1)];
    var target := [OpenAnchor(encodeId(anchor))] + [] + [Close(Anchor)];
    Plain(Text(text), [SectionTitle1]);
    Wrapped(Open(SectionTitle1), [Text(text)], []);
    assert Nest([], [Anchor]) == Some([Anchor]);
    Wrapped(OpenAnchor(encodeId(anchor)), [], []);
    NestAppend(heading, target, []);
    heading + target
  }

  /** `sinkHeader`: the text in one table header cell. */
  function Header(header: string): (r: seq<Event>)
    ensures Balanced(r)
    ensures r == [Open(TableHeaderCell), Text(header), Close(TableHeaderCell)]
  {
    Plain(Text(header), [TableHeaderCell]);
    Wrapped(Open(TableHeaderCell), [Text(header)], []);
    [Open(TableHeaderCell)] + [Text(header)] + [Close(TableHeaderCell)]
  }

  /** `sinkLink`: the text inside a link to `link`. */
  function LinkElement(text: string, link: string): (r: seq<Event>)
    ensures Balanced(r)
    ensures r == [OpenLink(link), Text(text), Close(Link)]
  {
    Plain(Text(text), [Link]);
    Wrapped(OpenLink(link), [Text(text)], []);
    [OpenLink(link)] + [Text(text)] + [Close(Link)]
  }

  /** `sinkCellLink`: a link inside exactly one table cell. */
  function CellLink(text: string, link: string): (r: seq<Event>)
    ensures Balanced(r)
    ensures r == [Open(TableCell), OpenLink(link), Text(text), Close(Link), Close(TableCell)]
  {
    var inner := LinkElement(text, link);
    BalancedAnywhere(inner, [TableCell]);
    assert [] + [TableCell] == [TableCell];
    Wrapped(Open(TableCell), inner, []);
    [Open(TableCell)] + inner + [Close(TableCell)]
  }

  /** `sinkSectionTitle2Anchor`: as `sinkSectionTitle1Anchor`, one level
      down. */
  function SectionTitle2Anchor(text: string, anchor: string, encodeId: string -> string): (r: seq<Event>)
    ensures Balanced(r)
    ensures r == [Open(SectionTitle2), Text(text), Close(SectionTitle2), OpenAnchor(encodeId(anchor)), Close(Anchor)]
  {
    var heading := [Open(SectionTitle2)] + [Text(text)] + [Close(SectionTitle2)];
    var target := [OpenAnchor(encodeId(anchor))] + [] + [Close(Anchor)];
    Plain(Text(text), [SectionTitle2]);
    Wrapped(Open(SectionTitle2), [Text(text)], []);
    assert Nest([], [Anchor]) == Some([Anchor]);
    Wrapped(OpenAnchor(encodeId(anchor)), [], []);
    NestAppend(heading, target, []);
    heading + target
  }

  /** The title of the report: the configured one, else the bundle's. */
  function ReportTitle(title: Option<string>, bundleHeader: string): (r: string)
    ensures title.Some? ==> r == title.value
    ensures title.None? ==> r == bundleHeader
  {
    title.GetOr(bundleHeader)
  }

  /** The author element, present only for a non-empty author. */
  function Authored(author: Option<string>): seq<Event> {
    if author.Some? && author.value != "" then [Open(Author)] + [Text(author.value)] + [Close(Author)] else []
  }

  lemma AuthorElement(author: Option<string>, stack: seq<Tag>)
    ensures Nest(Authored(author), stack) == Some(stack)
  {
    if author.Some? && author.value != "" {
      Plain(Text(author.value), stack + [Author]);
      Wrapped(Open(Author), [Text(author.value)], stack);
    }
  }

  /** The head of the report: the title element and, for a non-empty
      author only, the author element. */
  function HeadElement(title: string, author: Option<string>): (r: seq<Event>)
    ensures Nest(r, []) == Some([])
    ensures |r| == (if author.Some? && author.value != "" then 8 else 5)
    ensures r[..4] == [Open(Head), Open(Title), Text(title), Close(Title)]
    ensures Open(Author) in r <==> author.Some? && author.value != ""
    ensures author.Some? && author.value != "" ==> r[4..7] == [Open(Author), Text(author.value), Close(Author)]
  {
    var titled := [Open(Title)] + [Text(title)] + [Close(Title)];
    var authored := Authored(author);
    Plain(Text(title), [Head, Title]);
    Wrapped(Open(Title), [Text(title)], [Head]);
    AuthorElement(author, [Head]);
    NestAppend(titled, authored, [Head]);
    assert [] + [Head] == [Head];
    Wrapped(Open(Head), titled + authored, []);
    [Open(Head)] + (titled + authored) + [Close(Head)]
  }

  /** A balanced head, then body and section opened, then a balanced
      heading leaves exactly body and section open. */
  lemma BeginNest(head: seq<Event>, anchor: seq<Event>)
    requires Balanced(head) && Balanced(anchor)
    ensures Nest(head + [Open(Body), Open(Section1)] + anchor, []) == Some([Body, Section1])
  {
    var sectionOpen := [Open(Body), Open(Section1)];
    NestAppend(head + sectionOpen, anchor, []);
    NestAppend(head, sectionOpen, []);
    assert sectionOpen == [Open(Body)] + [Open(Section1)];
    assert [] + [Body] == [Body] && [Body] + [Section1] == [Body, Section1];
    NestCons(Open(Body), [Open(Section1)], []);
    NestCons(Open(Section1), [], [Body]);
    BalancedAnywhere(anchor, [Body, Section1]);
  }

  /** `sinkBeginReport`: the head, then the body and the first section
      left open, then the section title with its anchor. */
  function BeginReport(title: Option<string>, author: Option<string>, bundleHeader: string,
                       encodeId: string -> string): (r: seq<Event>)
    ensures Nest(r, []) == Some([Body, Section1])
    ensures |r| >= 3 && r[..3] == [Open(Head), Open(Title), Text(ReportTitle(title, bundleHeader))]
    ensures Open(Author) in r <==> author.Some? && author.value != ""
  {
    var reportTitle := ReportTitle(title, bundleHeader);
    var head := HeadElement(reportTitle, author);
    var anchor := SectionTitle1Anchor(reportTitle, reportTitle, encodeId);
    BeginNest(head, anchor);
    assert Open(Author) !in [Open(Body), Open(Section1)] + anchor;
    assert (head + [Open(Body), Open(Section1)] + anchor)[..3] == head[..4][..3];
    head + [Open(Body), Open(Section1)] + anchor
  }

  /** `sinkEndReport`: closes what the beginning left open, then flushes
      and closes the sink. */
  function EndReport(): (r: seq<Event>)
    ensures Nest(r, [Body, Section1]) == Some([])
    ensures |r| == 4 && r[2..] == [Flush, CloseSink]
  {
    NestCons(Close(Section1), [Close(Body), Flush, CloseSink], [Body, Section1]);
    NestCons(Close(Body), [Flush, CloseSink], [Body]);
    NestCons(Flush, [CloseSink], []);
    NestCons(CloseSink, [], []);
    [Close(Section1), Close(Body), Flush, CloseSink]
  }

  /** A report framed by `sinkBeginReport` and `sinkEndReport` around a
      balanced body is balanced as a whole and ends by flushing and
      closing the sink. */
  lemma ReportBalanced(title: Option<string>, author: Option<string>, bundleHeader: string,
                       encodeId: string -> string, content: seq<Event>)
    requires Balanced(content)
    ensures var report := BeginReport(title, author, bundleHeader, encodeId) + content + EndReport();
            Balanced(report) && report[|report| - 2..] == [Flush, CloseSink]
  {
    var begin := BeginReport(title, author, bundleHeader, encodeId);
    NestAppend(begin + content, EndReport(), []);
    NestAppend(begin, content, []);
    BalancedAnywhere(content, [Body, Section1]);
  }

  /** Cells side by side, as a report row lays them out. */
  function Cells(texts: seq<Option<string>>): (r: seq<Event>)
    ensures |r| == 3 * |texts|
    decreases |texts|
  {
    if |texts| == 0 then [] else Cell(texts[0]) + Cells(texts[1..])
  }

  /** A row of cells is balanced. */
  lemma {:induction false} CellsBalanced(texts: seq<Option<string>>)
    ensures Balanced(Cells(texts))
    decreases |texts|
  {
    if |texts| != 0 {
      NestAppend(Cell(texts[0]), Cells(texts[1..]), []);
      CellsBalanced(texts[1..]);
    }
  }
}

=== FILE: rest_downloader.dfy ===
/** The REST `IssuesDownloader`: normalise the release version, build the
    JQL query from the template, run one capped search and map each remote
    issue onto a fresh `JiraIssue`. The search is a parameter standing for
    the remote call. */
module RestDownloader {
  import opened Wrappers
  import opened Text
  import opened IssueModel

  /** The fields of a REST search hit that the mapping reads; `None` is a
      null the remote may return. Timestamps are not modelled. */
  datatype RestRemoteIssue = RestRemoteIssue(
    reporter: Option<string>,
    issueType: string,
    key: string,
    assignee: Option<string>,
    id: string,
    priority: Option<string>,
    resolution: Option<string>,
    status: string,
    summary: Option<string>,
    comments: seq<string>,
    components: seq<string>,
    fixVersions: Option<seq<string>>)

  /** The downloader's configuration; `releaseVersion` is overwritten by
      `getIssueList`. */
  datatype Downloader = Downloader(
    releaseVersion: string,
    jiraProjectKey: string,
    jqlTemplate: string,
    maxIssues: int,
    jiraURL: string)

  /** `TemplateRejected`: the template lies outside the modelled
      `MessageFormat` subset. `SearchFailed`: the search call threw; the
      `catch` around it only names `MojoFailureException`, which nothing in
      the block throws, so the failure escapes. */
  datatype DownloadError = TemplateRejected | SearchFailed(message: string)

  datatype Download = Download(
    downloader: Downloader,
    query: Option<string>,
    issues: Result<seq<JiraIssue>, DownloadError>)

  type Search = (string, int) -> Result<seq<RestRemoteIssue>, string>

  /** The first half of `fillIssue`'s scalar copies: reporter (when
      present), type, key, browse link and assignee (when present). */
  function FillHeader(i: JiraIssue, jiraURL: string, remote: RestRemoteIssue): (r: JiraIssue)
    ensures Get(r, Reporter) == (if remote.reporter.Some? then remote.reporter else Get(i, Reporter))
    ensures Get(r, Type) == Some(remote.issueType)
    ensures Get(r, Key) == Some(remote.key)
    ensures Get(r, Link) == Some(IssueLink(jiraURL, remote.key))
    ensures Get(r, Assignee) == (if remote.assignee.Some? then remote.assignee else Get(i, Assignee))
    ensures forall g: Field :: g !in {Reporter, Type, Key, Link, Assignee} ==> Get(r, g) == Get(i, g)
    ensures forall g: ListField :: GetList(r, g) == GetList(i, g)
    ensures r.remoteIssue == i.remoteIssue
  {
    var i1 := SetIfPresent(i, Reporter, remote.reporter);
    var i2 := Set(i1, Type, Some(remote.issueType));
    var i3 := Set(i2, Key, Some(remote.key));
    var i4 := Set(i3, Link, Some(IssueLink(jiraURL, remote.key)));
    SetIfPresent(i4, Assignee, remote.assignee)
  }

  /** The second half: id, priority and resolution (when present), status
      and summary. */
  function FillState(i: JiraIssue, remote: RestRemoteIssue): (r: JiraIssue)
    ensures Get(r, Id) == Some(remote.id)
    ensures Get(r, Priority) == (if remote.priority.Some? then remote.priority else Get(i, Priority))
    ensures Get(r, Resolution) == (if remote.resolution.Some? then remote.resolution else Get(i, Resolution))
    ensures Get(r, Status) == Some(remote.status)
    ensures Get(r, Summary) == remote.summary
    ensures forall g: Field :: g !in {Id, Priority, Resolution, Status, Summary} ==> Get(r, g) == Get(i, g)
    ensures forall g: ListField :: GetList(r, g) == GetList(i, g)
    ensures r.remoteIssue == i.remoteIssue
  {
    var i1 := Set(i, Id, Some(remote.id));
    var i2 := SetIfPresent(i1, Priority, remote.priority);
    var i3 := SetIfPresent(i2, Resolution, remote.resolution);
    var i4 := Set(i3, Status, Some(remote.status));
    Set(i4, Summary, remote.summary)
  }

  /** The list part of `fillIssue`: comments, components and, when the
      iterable is not null, fix versions are appended. */
  function FillLists(i: JiraIssue, remote: RestRemoteIssue): (r: JiraIssue)
    ensures GetList(r, Comments) == if |remote.comments| == 0 then GetList(i, Comments)
                                    else Some(GetList(i, Comments).GetOr([]) + remote.comments)
    ensures GetList(r, Components) == if |remote.components| == 0 then GetList(i, Components)
                                      else Some(GetList(i, Components).GetOr([]) + remote.components)
    ensures GetList(r, FixVersions) == if |remote.fixVersions.GetOr([])| == 0 then GetList(i, FixVersions)
                                       else Some(GetList(i, FixVersions).GetOr([]) + remote.fixVersions.value)
    ensures SameScalars(r, i)
  {
    var i1 := AddAll(i, Comments, remote.comments);
    var i2 := AddAll(i1, Components, remote.components);
    if remote.fixVersions.Some? then AddAll(i2, FixVersions, remote.fixVersions.value) else i2
  }

  /** `fillIssue`: copies type, key, id, status and summary always, the
      reporter, assignee, priority and resolution only when present, sets
      the browse link, and appends comments, components and (when the
      iterable is not null) fix versions. `remoteIssue` is never touched. */
  function FillIssue(issue: JiraIssue, jiraURL: string, remote: RestRemoteIssue): (r: JiraIssue)
    ensures Get(r, Reporter) == (if remote.reporter.Some? then remote.reporter else Get(issue, Reporter))
    ensures Get(r, Assignee) == (if remote.assignee.Some? then remote.assignee else Get(issue, Assignee))
    ensures Get(r, Priority) == (if remote.priority.Some? then remote.priority else Get(issue, Priority))
    ensures Get(r, Resolution) == (if remote.resolution.Some? then remote.resolution else Get(issue, Resolution))
    ensures Get(r, Type) == Some(remote.issueType)
    ensures Get(r, Key) == Some(remote.key)
    ensures Get(r, Id) == Some(remote.id)
    ensures Get(r, Status) == Some(remote.status)
    ensures Get(r, Summary) == remote.summary
    ensures Get(r, Link) == Some(IssueLink(jiraURL, remote.key))
    ensures GetList(r, Comments) == if |remote.comments| == 0 then GetList(issue, Comments)
                                    else Some(GetList(issue, Comments).GetOr([]) + remote.comments)
    ensures GetList(r, Components) == if |remote.components| == 0 then GetList(issue, Components)
                                      else Some(GetList(issue, Components).GetOr([]) + remote.components)
    ensures GetList(r, FixVersions) == if |remote.fixVersions.GetOr([])| == 0 then GetList(issue, FixVersions)
                                       else Some(GetList(issue, FixVersions).GetOr([]) + remote.fixVersions.value)
    ensures r.remoteIssue == issue.remoteIssue
  {
    var st := FillState(FillHeader(issue, jiraURL, remote), remote);
    HeaderSurvivesState(issue, jiraURL, remote);
    FillLists(st, remote)
  }

  /** The header fields are untouched by the second half, and the first
      half leaves priority, resolution and the lists alone. */
  lemma HeaderSurvivesState(issue: JiraIssue, jiraURL: string, remote: RestRemoteIssue)
    ensures var h := FillHeader(issue, jiraURL, remote);
            var st := FillState(h, remote);
            && Get(st, Reporter) == Get(h, Reporter) && Get(st, Type) == Get(h, Type)
            && Get(st, Key) == Get(h, Key) && Get(st, Link) == Get(h, Link)
            && Get(st, Assignee) == Get(h, Assignee)
            && Get(h, Priority) == Get(issue, Priority) && Get(h, Resolution) == Get(issue, Resolution)
            && (forall g: ListField :: GetList(st, g) == GetList(issue, g))
            && st.remoteIssue == issue.remoteIssue
  {
    var h := FillHeader(issue, jiraURL, remote);
    var st := FillState(h, remote);
    assert Get(st, Reporter) == Get(h, Reporter) && Get(st, Type) == Get(h, Type);
    assert Get(st, Key) == Get(h, Key) && Get(st, Link) == Get(h, Link);
    assert Get(st, Assignee) == Get(h, Assignee);
    assert Get(h, Priority) == Get(issue, Priority) && Get(h, Resolution) == Get(issue, Resolution);
  }

  /** `new JiraIssue()` followed by `fillIssue`. */
  function Convert(jiraURL: string, remote: RestRemoteIssue): JiraIssue
  {
    FillIssue(New(), jiraURL, remote)
  }

  /** The loop over the search hits: one issue per hit, in hit order. */
  function ConvertAll(jiraURL: string, remotes: seq<RestRemoteIssue>): (r: seq<JiraIssue>)
    ensures |r| == |remotes|
    ensures forall k :: 0 <= k < |r| ==> r[k] == Convert(jiraURL, remotes[k])
    decreases |remotes|
  {
    if |remotes| == 0 then []
    else [Convert(jiraURL, remotes[0])] + ConvertAll(jiraURL, remotes[1..])
  }

  /** The JQL query: the template with the project key for `{0}` and the
      normalised release version for `{1}`. */
  function Query(d: Downloader): Option<string>
  {
    Format(d.jqlTemplate, d.jiraProjectKey, NormalizeVersion(d.releaseVersion))
  }

  /** `getIssueList`. */
  function GetIssueList(d: Downloader, search: Search): (r: Download)
    ensures r.downloader == d.(releaseVersion := NormalizeVersion(d.releaseVersion))
    ensures r.query == Format(d.jqlTemplate, d.jiraProjectKey, NormalizeVersion(d.releaseVersion))
    ensures r.query.None? ==> r.issues == Err(TemplateRejected)
    ensures r.query.Some? && search(r.query.value, d.maxIssues).Err? ==>
              r.issues == Err(SearchFailed(search(r.query.value, d.maxIssues).error))
    ensures r.query.Some? && search(r.query.value, d.maxIssues).Ok? ==>
              var hits := search(r.query.value, d.maxIssues).value;
              && r.issues.Ok?
              && |r.issues.value| == |hits|
              && forall k :: 0 <= k < |hits| ==> r.issues.value[k] == Convert(d.jiraURL, hits[k])
  {
    var normalized := NormalizeVersion(d.releaseVersion);
    var d' := d.(releaseVersion := normalized);
    var query := Format(d.jqlTemplate, d.jiraProjectKey, normalized);
    match query
    case None => Download(d', query, Err(TemplateRejected))
    case Some(jql) =>
      match search(jql, d.maxIssues)
      case Err(e) => Download(d', query, Err(SearchFailed(e)))
      case Ok(hits) => Download(d', query, Ok(ConvertAll(d.jiraURL, hits)))
  }

  /** Because the version field is overwritten with its normalised form, a
      second call on the same downloader builds the same query. */
  lemma RepeatedCallSameQuery(d: Downloader, search: Search)
    ensures Query(GetIssueList(d, search).downloader) == Query(d)
  {
    NormalizeVersionIdempotent(d.releaseVersion);
  }

  /** A downloaded issue never carries a remote handle, and each of its
      lists is null exactly when the remote had nothing for it. */
  lemma ConvertedIssueShape(jiraURL: string, remote: RestRemoteIssue)
    ensures Convert(jiraURL, remote).remoteIssue == None
    ensures GetList(Convert(jiraURL, remote), Comments).None? <==> |remote.comments| == 0
    ensures GetList(Convert(jiraURL, remote), Components).None? <==> |remote.components| == 0
    ensures GetList(Convert(jiraURL, remote), FixVersions).None? <==> |remote.fixVersions.GetOr([])| == 0
    ensures Get(Convert(jiraURL, remote), Reporter).None? <==> remote.reporter.None?
    ensures Get(Convert(jiraURL, remote), Assignee).None? <==> remote.assignee.None?
  {
  }

  /** No issue `getIssueList` returns carries a remote handle. */
  lemma DownloadedIssuesDetached(d: Downloader, search: Search)
    ensures GetIssueList(d, search).issues.Ok? ==>
              forall k :: 0 <= k < |GetIssueList(d, search).issues.value| ==>
                GetIssueList(d, search).issues.value[k].remoteIssue == None
  {
    var download := GetIssueList(d, search);
    if download.issues.Ok? {
      var hits := search(download.query.value, d.maxIssues).value;
      forall k | 0 <= k < |download.issues.value| ensures download.issues.value[k].remoteIssue == None {
        ConvertedIssueShape(d.jiraURL, hits[k]);
      }
    }
  }
}

=== FILE: rest_versions.dfy ===
/** The REST `ReleaseVersionMojo` and its `RemoteVersionComparator`. The
    mojo builds a sorted copy of the project's versions but selects from
    the versions in their original order, so the comparator never affects
    which version is released; the comparator is modelled on its own. */
module RestVersions {
  import opened Wrappers
  import opened Text
  import opened Sorting

  /** A project version as the REST client reports it. */
  datatype Version = Version(name: string, released: bool, self: string)

  /** The update payload; the release date is not modelled. */
  datatype VersionInput = VersionInput(
    projectKey: string,
    name: string,
    description: Option<string>,
    archived: bool,
    released: bool)

  /** The payload together with the URI of the version it updates. */
  datatype VersionHolder = VersionHolder(version: VersionInput, versionURI: string)

  /** `doComparison`: the negated case-insensitive comparison of the names. */
  function Compare(a: Version, b: Version): (r: int)
    ensures r == 0 <==> EqualsIgnoreCase(a.name, b.name)
    ensures r == -CompareToIgnoreCase(a.name, b.name)
  {
    -1 * CompareToIgnoreCase(a.name, b.name)
  }

  lemma CompareAntisymmetric(a: Version, b: Version)
    ensures Compare(a, b) == -Compare(b, a)
  {
    CompareToIgnoreCaseAntisymmetric(a.name, b.name);
  }

  /** A name that is a proper prefix of another sorts after it: "1.0"
      comes after "1.0.1". */
  lemma ProperPrefixSortsAfter(a: Version, b: Version)
    requires |a.name| < |b.name| && a.name == b.name[..|a.name|]
    ensures Compare(a, b) > 0 && Compare(b, a) < 0
  {
    ProperPrefixComparesBelow(a.name, b.name);
    CompareAntisymmetric(a, b);
  }

  /** `compare(a, b) <= 0`. */
  function Le(): (Version, Version) -> bool {
    (a: Version, b: Version) => Compare(a, b) <= 0
  }

  lemma LeTotalPreorder()
    ensures TotalPreorder(Le())
  {
    var le := Le();
    forall a: Version, b: Version ensures le(a, b) || le(b, a) {
      CompareAntisymmetric(a, b);
    }
    forall a: Version, b: Version, c: Version ensures TransitiveAt(le, a, b, c) {
      if le(a, b) && le(b, c) {
        CompareToIgnoreCaseAntisymmetric(a.name, b.name);
        CompareToIgnoreCaseAntisymmetric(b.name, c.name);
        CompareToIgnoreCaseAntisymmetric(a.name, c.name);
        CompareToIgnoreCaseTransitive(c.name, b.name, a.name);
      }
    }
  }

  /** Sorting with the comparator lists the names in descending
      case-insensitive order. */
  lemma SortDescending(versions: seq<Version>)
    ensures var s := SortBy(versions, Le());
            forall i, j :: 0 <= i < j < |s| ==> CompareToIgnoreCase(s[i].name, s[j].name) >= 0
  {
    LeTotalPreorder();
    SortBySorted(versions, Le());
    var s := SortBy(versions, Le());
    assert SortedBy(s, Le());
    forall i, j | 0 <= i < j < |s| ensures CompareToIgnoreCase(s[i].name, s[j].name) >= 0 {
      assert Le()(s[i], s[j]);
    }
  }

  /** Whether the loop of `calculateReleaseVersion` stops at `v`: with
      auto-discovery any unreleased version, otherwise an unreleased version
      named exactly (case-sensitively) as the configured release version. */
  predicate Selects(auto: bool, releaseVersion: Option<string>, v: Version) {
    !v.released && (auto || Some(v.name) == releaseVersion)
  }

  /** The first selected version, in the original order, and its index. */
  function FirstSelected(versions: seq<Version>, auto: bool, releaseVersion: Option<string>): (r: Option<nat>)
    ensures r.Some? ==> r.value < |versions| && Selects(auto, releaseVersion, versions[r.value])
    ensures r.Some? ==> forall j :: 0 <= j < r.value ==> !Selects(auto, releaseVersion, versions[j])
    ensures r.None? ==> forall j :: 0 <= j < |versions| ==> !Selects(auto, releaseVersion, versions[j])
    decreases |versions|
  {
    if |versions| == 0 then None
    else if Selects(auto, releaseVersion, versions[0]) then Some(0)
    else
      match FirstSelected(versions[1..], auto, releaseVersion)
      case None => None
      case Some(k) => Some(k + 1)
  }

  /** `calculateReleaseVersion`: the payload marks the selected version
      released and not archived, under the configured project key and with
      the selected version's own name (which, without auto-discovery,
      equals the configured release version). */
  function CalculateReleaseVersion(versions: seq<Version>, auto: bool, releaseVersion: Option<string>,
                                   projectKey: string): (r: Option<VersionHolder>)
    ensures r.None? <==> forall j :: 0 <= j < |versions| ==> !Selects(auto, releaseVersion, versions[j])
    ensures r.Some? ==> exists k :: 0 <= k < |versions| && Selects(auto, releaseVersion, versions[k])
                           && (forall j :: 0 <= j < k ==> !Selects(auto, releaseVersion, versions[j]))
                           && r.value == VersionHolder(VersionInput(projectKey, versions[k].name, None, false, true),
                                                       versions[k].self)
  {
    match FirstSelected(versions, auto, releaseVersion)
    case None => None
    case Some(k) => Some(VersionHolder(VersionInput(projectKey, versions[k].name, None, false, true), versions[k].self))
  }

  /** `doExecute`: the update calls it issues, each a URI and a payload;
      there is at most one. */
  function DoExecute(versions: seq<Version>, auto: bool, releaseVersion: Option<string>,
                     projectKey: string): (updates: seq<VersionHolder>)
    ensures |updates| <= 1
    ensures |updates| == 0 <==> CalculateReleaseVersion(versions, auto, releaseVersion, projectKey).None?
    ensures forall u :: u in updates ==> u.version.released && !u.version.archived && u.version.projectKey == projectKey
  {
    match CalculateReleaseVersion(versions, auto, releaseVersion, projectKey)
    case None => []
    case Some(h) => [h]
  }

  /** A released version is never chosen, and without auto-discovery only a
      version of exactly the configured name is. */
  lemma SelectionRespectsConfig(versions: seq<Version>, auto: bool, releaseVersion: Option<string>, projectKey: string)
    requires CalculateReleaseVersion(versions, auto, releaseVersion, projectKey).Some?
    ensures var h := CalculateReleaseVersion(versions, auto, releaseVersion, projectKey).value;
            && (exists k :: 0 <= k < |versions| && !versions[k].released && versions[k].self == h.versionURI
                            && versions[k].name == h.version.name)
            && (!auto ==> Some(h.version.name) == releaseVersion)
  {
  }
}

=== FILE: soap_downloader.dfy ===
/** The SOAP `IssuesDownloader`: normalise the release version, build the
    JQL query, obtain the lazily created client, run one search and fill a
    fresh `JiraIssue` per hit by resolving codes through the service's
    lookup tables. Every failure after the query is built ends the run with
    a "No issues found." warning and the issues gathered so far. */
module SoapDownloader {
  import opened Wrappers
  import opened Text
  import opened IssueModel
  import opened SoapService
  import opened LazyClient

  datatype Downloader = Downloader(
    releaseVersion: string,
    jiraProjectKey: string,
    jqlTemplate: string,
    maxIssues: int,
    url: string)

  /** What `fillIssue` can throw: a `RemoteException` rewrapped as a
      `MojoFailureException`, or an unchecked exception passing through. */
  datatype FillError = MojoFailure(message: string) | Escaped(message: string)

  function Rewrap(f: Failure): (e: FillError)
    ensures e.MojoFailure? <==> f.Remote?
  {
    match f
    case Remote(_) => MojoFailure("Error retrieving values from remote issue")
    case Unchecked(m) => Escaped(m)
  }

  /** Everything `fillIssue` reads, once every call and dereference
      succeeds. */
  datatype Lookups = Lookups(
    reporter: string,
    issueTypes: seq<NamedEntry>,
    assignee: string,
    priorities: seq<NamedEntry>,
    resolutions: seq<NamedEntry>,
    statuses: seq<NamedEntry>,
    comments: seq<string>,
    components: seq<string>,
    fixVersions: seq<string>)

  function ErrorOf<T>(x: Result<T, Failure>): seq<Failure> {
    if x.Err? then [x.error] else []
  }

  /** The dereference of a possibly null answer. */
  function NonNull<T>(x: Option<T>): (r: Result<T, Failure>)
    ensures r.Ok? <==> x.Some?
    ensures r.Err? ==> r.error == NullPointer
    ensures r.Ok? ==> r.value == x.value
  {
    if x.Some? then Ok(x.value) else Err(NullPointer)
  }

  /** The issue-type step: `remoteProject.getId()` dereferences the project
      the first call returned, then the types of that project are asked. */
  function TypesFailures(svc: Service, project: Option<string>): seq<Failure> {
    if project.None? then [NullPointer] else ErrorOf(svc.issueTypesForProject(project.value))
  }

  /** The failures of `fillIssue`, in the order the code meets them:
      project, reporter, the project's id and issue types (only once the
      project call returned), assignee, priorities, resolutions, statuses,
      comments, then the components and fix-version arrays. */
  function FailuresOf(svc: Service, remote: SoapRemoteIssue): seq<Failure> {
    var project := svc.projectByKey(remote.project);
    ErrorOf(project)
    + ErrorOf(svc.userFullName(remote.reporter))
    + (if project.Ok? then TypesFailures(svc, project.value) else [])
    + ErrorOf(svc.userFullName(remote.assignee))
    + ErrorOf(svc.priorities)
    + ErrorOf(svc.resolutions)
    + ErrorOf(svc.statuses)
    + ErrorOf(svc.comments(remote.key))
    + ErrorOf(NonNull(remote.components))
    + ErrorOf(NonNull(remote.fixVersions))
  }

  /** The calls and dereferences of `fillIssue`, stopping at the first
      failure. */
  function Fetch(svc: Service, remote: SoapRemoteIssue): (r: Result<Lookups, Failure>)
    ensures r.Ok? <==> |FailuresOf(svc, remote)| == 0
    ensures r.Err? ==> r.error == FailuresOf(svc, remote)[0]
    ensures r.Ok? ==>
              && svc.projectByKey(remote.project).Ok?
              && svc.projectByKey(remote.project).value.Some?
              && svc.userFullName(remote.reporter) == Ok(r.value.reporter)
              && svc.issueTypesForProject(svc.projectByKey(remote.project).value.value) == Ok(r.value.issueTypes)
              && svc.userFullName(remote.assignee) == Ok(r.value.assignee)
              && svc.priorities == Ok(r.value.priorities)
              && svc.resolutions == Ok(r.value.resolutions)
              && svc.statuses == Ok(r.value.statuses)
              && svc.comments(remote.key) == Ok(r.value.comments)
              && remote.components == Some(r.value.components)
              && remote.fixVersions == Some(r.value.fixVersions)
  {
    var project :- svc.projectByKey(remote.project);
    var reporter :- svc.userFullName(remote.reporter);
    var projectId :- NonNull(project);
    var issueTypes :- svc.issueTypesForProject(projectId);
    var assignee :- svc.userFullName(remote.assignee);
    var priorities :- svc.priorities;
    var resolutions :- svc.resolutions;
    var statuses :- svc.statuses;
    var comments :- svc.comments(remote.key);
    var components :- NonNull(remote.components);
    var fixVersions :- NonNull(remote.fixVersions);
    Ok(Lookups(reporter, issueTypes, assignee, priorities, resolutions, statuses, comments, components, fixVersions))
  }

  /** The scalar setter calls of `fillIssue` on a fresh issue: the full
      names are always set, a code-resolved field only when some entry's
      id matches its code. */
  function BuildScalars(url: string, remote: SoapRemoteIssue, lk: Lookups): (r: JiraIssue)
    ensures Get(r, Reporter) == Some(lk.reporter)
    ensures Get(r, Type) == FirstMatch(lk.issueTypes, remote.issueType)
    ensures Get(r, Key) == Some(remote.key)
    ensures Get(r, Link) == Some(IssueLink(url, remote.key))
    ensures Get(r, Assignee) == Some(lk.assignee)
    ensures Get(r, Id) == Some(remote.id)
    ensures Get(r, Priority) == FirstMatch(lk.priorities, remote.priority)
    ensures Get(r, Resolution) == FirstMatch(lk.resolutions, remote.resolution)
    ensures Get(r, Status) == FirstMatch(lk.statuses, remote.status)
    ensures Get(r, Summary) == remote.summary
    ensures forall f: ListField :: GetList(r, f) == None
    ensures r.remoteIssue == None
  {
    var i0 := New();
    var i1 := Set(i0, Reporter, Some(lk.reporter));
    var i2 := SetIfPresent(i1, Type, FirstMatch(lk.issueTypes, remote.issueType));
    var i3 := Set(i2, Key, Some(remote.key));
    var i4 := Set(i3, Link, Some(IssueLink(url, remote.key)));
    var i5 := Set(i4, Assignee, Some(lk.assignee));
    var i6 := Set(i5, Id, Some(remote.id));
    var i7 := SetIfPresent(i6, Priority, FirstMatch(lk.priorities, remote.priority));
    var i8 := SetIfPresent(i7, Resolution, FirstMatch(lk.resolutions, remote.resolution));
    var i9 := SetIfPresent(i8, Status, FirstMatch(lk.statuses, remote.status));
    Set(i9, Summary, remote.summary)
  }

  /** The three append loops of `fillIssue`, on an issue whose lists are
      still null. */
  function AppendLists(i: JiraIssue, comments: seq<string>, components: seq<string>, fixVersions: seq<string>): (r: JiraIssue)
    requires forall f: ListField :: GetList(i, f) == None
    ensures GetList(r, Comments) == (if |comments| == 0 then None else Some(comments))
    ensures GetList(r, Components) == (if |components| == 0 then None else Some(components))
    ensures GetList(r, FixVersions) == (if |fixVersions| == 0 then None else Some(fixVersions))
    ensures SameScalars(r, i)
  {
    var i1 := AddAll(i, Comments, comments);
    var i2 := AddAll(i1, Components, components);
    var r := AddAll(i2, FixVersions, fixVersions);
    assert [] + comments == comments && [] + components == components && [] + fixVersions == fixVersions;
    assert GetList(i, Comments) == None && GetList(i1, Components) == None && GetList(i2, FixVersions) == None;
    r
  }

  /** `fillIssue` on `new JiraIssue()`: the remote calls, then the setters,
      then comments, components and fix versions appended in remote order.
      A failed call leaves nothing behind. */
  function FillIssue(svc: Service, url: string, remote: SoapRemoteIssue): (r: Result<JiraIssue, FillError>)
    ensures r.Ok? <==> |FailuresOf(svc, remote)| == 0
    ensures r.Err? ==> r.error == Rewrap(FailuresOf(svc, remote)[0])
    ensures r.Ok? ==>
              var lk := Fetch(svc, remote).value;
              && SameScalars(r.value, BuildScalars(url, remote, lk))
              && GetList(r.value, Comments) == (if |lk.comments| == 0 then None else Some(lk.comments))
              && GetList(r.value, Components) == (if |lk.components| == 0 then None else Some(lk.components))
              && GetList(r.value, FixVersions) == (if |lk.fixVersions| == 0 then None else Some(lk.fixVersions))
  {
    match Fetch(svc, remote)
    case Err(f) => Err(Rewrap(f))
    case Ok(lk) => Ok(AppendLists(BuildScalars(url, remote, lk), lk.comments, lk.components, lk.fixVersions))
  }

  /** A null project fails only at its dereference, after the reporter
      lookup: a `RemoteException` from that lookup still surfaces as the
      mojo failure. */
  lemma NullProjectAfterReporter(svc: Service, url: string, remote: SoapRemoteIssue, m: string)
    requires svc.projectByKey(remote.project) == Ok(None)
    requires svc.userFullName(remote.reporter) == Err(Remote(m))
    ensures FillIssue(svc, url, remote) == Err(MojoFailure("Error retrieving values from remote issue"))
  {
    assert FailuresOf(svc, remote)[0] == Remote(m);
  }

  /** With the reporter found, a null project escapes as the dereference's
      `NullPointerException`, whatever the later calls would answer. */
  lemma NullProjectEscapes(svc: Service, url: string, remote: SoapRemoteIssue)
    requires svc.projectByKey(remote.project) == Ok(None)
    requires svc.userFullName(remote.reporter).Ok?
    ensures FillIssue(svc, url, remote) == Err(Escaped("NullPointerException"))
  {
    assert FailuresOf(svc, remote)[0] == NullPointer;
  }

  /** A null components or fix-version array is dereferenced last: when
      every remote call answers, it escapes as a `NullPointerException`. */
  lemma NullArrayEscapes(svc: Service, url: string, remote: SoapRemoteIssue)
    requires svc.projectByKey(remote.project).Ok? && svc.projectByKey(remote.project).value.Some?
    requires svc.userFullName(remote.reporter).Ok? && svc.userFullName(remote.assignee).Ok?
    requires svc.issueTypesForProject(svc.projectByKey(remote.project).value.value).Ok?
    requires svc.priorities.Ok? && svc.resolutions.Ok? && svc.statuses.Ok? && svc.comments(remote.key).Ok?
    requires remote.components.None? || remote.fixVersions.None?
    ensures FillIssue(svc, url, remote) == Err(Escaped("NullPointerException"))
  {
    assert FailuresOf(svc, remote)[0] == NullPointer;
  }

  /** The query of `getIssueList`; `None` when the template is outside the
      modelled `MessageFormat` subset, which throws before the guarded
      block is entered. */
  function Query(d: Downloader): Option<string>
  {
    Format(d.jqlTemplate, d.jiraProjectKey, NormalizeVersion(d.releaseVersion))
  }

  datatype Download = Download(
    downloader: Downloader,
    cache: Option<Service>,
    issues: seq<JiraIssue>,
    warned: bool)

  datatype Thrown = TemplateRejected

  /** `done` are the fillings of the first `|done|` hits. */
  ghost predicate FilledPrefix<S, I, E>(fill: S -> Result<I, E>, hits: seq<S>, done: seq<I>) {
    && |done| <= |hits|
    && forall k :: 0 <= k < |done| ==> fill(hits[k]) == Ok(done[k])
  }

  /** The loop of `getIssueList`: fill hit after hit until one fails. The
      result is the longest run of successful fillings from the front;
      `stopped` tells whether a failure cut it short. */
  method FillAll<S, I, E>(fill: S -> Result<I, E>, hits: seq<S>) returns (done: seq<I>, stopped: bool)
    ensures FilledPrefix(fill, hits, done)
    ensures stopped <==> |done| < |hits|
    ensures stopped ==> fill(hits[|done|]).Err?
  {
    done := [];
    var k := 0;
    while k < |hits|
      invariant 0 <= k <= |hits|
      invariant |done| == k
      invariant FilledPrefix(fill, hits, done)
    {
      var filled := fill(hits[k]);
      if filled.Err? {
        return done, true;
      }
      done := done + [filled.value];
      k := k + 1;
    }
    return done, false;
  }

  /** `getIssueList` with the client cache it reads and fills, and the
      connection attempt `getClient` would make. Every failure past the
      query is swallowed with a warning, keeping what was gathered. */
  method GetIssueList(d: Downloader, cache: Option<Service>, connect: Result<Service, string>)
    returns (r: Result<Download, Thrown>)
    ensures r.Err? <==> Query(d).None?
    ensures r.Ok? ==> r.value.downloader == d.(releaseVersion := NormalizeVersion(d.releaseVersion))
    ensures r.Ok? ==> r.value.cache == Obtain(cache, connect).cache
    ensures r.Ok? && Obtain(cache, connect).client.Err? ==> r.value.issues == [] && r.value.warned
    ensures r.Ok? && Obtain(cache, connect).client.Ok? ==>
              var svc := Obtain(cache, connect).client.value;
              var found := svc.search(Query(d).value, d.maxIssues);
              && (found.Err? ==> r.value.issues == [] && r.value.warned)
              && (found.Ok? ==>
                    && FilledPrefix((h: SoapRemoteIssue) => FillIssue(svc, d.url, h), found.value, r.value.issues)
                    && (r.value.warned <==> |r.value.issues| < |found.value|)
                    && (r.value.warned ==> FillIssue(svc, d.url, found.value[|r.value.issues|]).Err?))
  {
    var normalized := NormalizeVersion(d.releaseVersion);
    var d' := d.(releaseVersion := normalized);
    var query := Format(d.jqlTemplate, d.jiraProjectKey, normalized);
    if query.None? {
      return Err(TemplateRejected);
    }
    var obtained := Obtain(cache, connect);
    if obtained.client.Err? {
      return Ok(Download(d', obtained.cache, [], true));
    }
    var svc := obtained.client.value;
    var found := svc.search(query.value, d.maxIssues);
    if found.Err? {
      return Ok(Download(d', obtained.cache, [], true));
    }
    var issues, stopped := FillAll((h: SoapRemoteIssue) => FillIssue(svc, d.url, h), found.value);
    return Ok(Download(d', obtained.cache, issues, stopped));
  }
}

=== FILE: soap_issue_view.dfy ===
/** The SOAP variant's `JiraIssue`: a view over one remote issue that asks
    the service for display values on every call. A `RemoteException` turns
    into the empty string; any other failure escapes as `Err`. */
module SoapIssueView {
  import opened Wrappers
  import opened SoapService

  datatype View = View(remote: SoapRemoteIssue, service: Service)

  /** `getKey`: the remote key, unchanged. */
  function GetKey(v: View): string {
    v.remote.key
  }

  /** `getSummary`: the remote summary, unchanged (possibly null). */
  function GetSummary(v: View): Option<string> {
    v.remote.summary
  }

  /** `getReporter`: the reporter's full name, or "" when the user lookup
      raises a `RemoteException`. */
  function GetReporter(v: View): (r: Result<string, string>)
    ensures v.service.userFullName(v.remote.reporter).Ok? ==> r == Ok(v.service.userFullName(v.remote.reporter).value)
    ensures v.service.userFullName(v.remote.reporter).Err? ==>
              match v.service.userFullName(v.remote.reporter).error
              case Remote(_) => r == Ok("")
              case Unchecked(m) => r == Err(m)
  {
    match v.service.userFullName(v.remote.reporter)
    case Ok(name) => Ok(name)
    case Err(Remote(_)) => Ok("")
    case Err(Unchecked(m)) => Err(m)
  }

  /** `getType`: the name of the first issue type of the issue's project
      whose id equals the remote type code; "" when none matches or when
      either lookup raises a `RemoteException`. A null project fails at
      its dereference, which the `RemoteException` handler does not catch. */
  function GetType(v: View): (r: Result<string, string>)
    ensures var project := v.service.projectByKey(v.remote.project);
            r.Err? <==> IsUnchecked(project)
                        || (project.Ok? && project.value.None?)
                        || (project.Ok? && project.value.Some?
                            && IsUnchecked(v.service.issueTypesForProject(project.value.value)))
    ensures v.service.projectByKey(v.remote.project) == Ok(None) ==> r == Err("NullPointerException")
    ensures r.Ok? && r.value != "" ==>
              && v.service.projectByKey(v.remote.project).Ok?
              && v.service.projectByKey(v.remote.project).value.Some?
              && var types := v.service.issueTypesForProject(v.service.projectByKey(v.remote.project).value.value);
              && types.Ok?
              && FirstMatch(types.value, v.remote.issueType) == Some(r.value)
    ensures v.service.projectByKey(v.remote.project).Ok? && v.service.projectByKey(v.remote.project).value.Some? ==>
              var types := v.service.issueTypesForProject(v.service.projectByKey(v.remote.project).value.value);
              types.Ok? ==> r == Ok(FirstMatch(types.value, v.remote.issueType).GetOr(""))
  {
    match v.service.projectByKey(v.remote.project)
    case Err(Remote(_)) => Ok("")
    case Err(Unchecked(m)) => Err(m)
    case Ok(None) => Err(NullPointer.message)
    case Ok(Some(projectId)) =>
      match v.service.issueTypesForProject(projectId)
      case Err(Remote(_)) => Ok("")
      case Err(Unchecked(m)) => Err(m)
      case Ok(types) => Ok(FirstMatch(types, v.remote.issueType).GetOr(""))
  }

  /** A type code that no project issue type carries reads as "". */
  lemma UnknownTypeReadsEmpty(v: View, projectId: string, types: seq<NamedEntry>)
    requires v.service.projectByKey(v.remote.project) == Ok(Some(projectId))
    requires v.service.issueTypesForProject(projectId) == Ok(types)
    requires forall k :: 0 <= k < |types| ==> v.remote.issueType != Some(types[k].id)
    ensures GetType(v) == Ok("")
  {
    assert forall k :: 0 <= k < |types| ==> !Names(types, k, v.remote.issueType);
  }
}

=== FILE: soap_release_notes.dfy ===
/** The SOAP `GenerateReleaseNotesMojo`: search with the normalised version,
    wrap each hit in an issue view, sort the views by key number and
    append the rendered notes between the optional before and after texts.
    There is no category grouping in this variant. */
module SoapReleaseNotes {
  import opened Wrappers
  import opened Text
  import opened SoapService
  import opened SoapIssueView
  import opened IssueOrder
  import opened Sorting
  import opened LazyClient
  import ReleaseNotes

  datatype Config = Config(
    targetFile: Option<string>,
    beforeText: Option<string>,
    afterText: Option<string>,
    url: string,
    jiraProjectKey: string,
    releaseVersion: string,
    jqlTemplate: string,
    maxIssues: int)

  datatype Fetched = Fetched(config: Config, cache: Option<Service>, issues: Option<seq<SoapRemoteIssue>>)

  datatype Thrown = TemplateRejected

  /** `getIssues`: the release version is normalised (`capitaliseAllWords`
      behaves as `capitalize`) and written back; a failed connection or
      search is swallowed with a warning and leaves the result null. */
  function GetIssues(cfg: Config, cache: Option<Service>, connect: Result<Service, string>): (r: Result<Fetched, Thrown>)
    ensures r.Err? <==> Format(cfg.jqlTemplate, cfg.jiraProjectKey, NormalizeVersion(cfg.releaseVersion)).None?
    ensures r.Ok? ==> r.value.config == cfg.(releaseVersion := NormalizeVersion(cfg.releaseVersion))
    ensures r.Ok? ==> r.value.cache == Obtain(cache, connect).cache
    ensures r.Ok? ==> (r.value.issues.Some? <==>
                         Obtain(cache, connect).client.Ok?
                         && Obtain(cache, connect).client.value.search(
                              Format(cfg.jqlTemplate, cfg.jiraProjectKey, NormalizeVersion(cfg.releaseVersion)).value,
                              cfg.maxIssues).Ok?)
    ensures r.Ok? && r.value.issues.Some? ==>
              Obtain(cache, connect).client.value.search(
                Format(cfg.jqlTemplate, cfg.jiraProjectKey, NormalizeVersion(cfg.releaseVersion)).value,
                cfg.maxIssues) == Ok(r.value.issues.value)
  {
    var normalized := NormalizeVersion(cfg.releaseVersion);
    var cfg' := cfg.(releaseVersion := normalized);
    match Format(cfg.jqlTemplate, cfg.jiraProjectKey, normalized)
    case None => Err(TemplateRejected)
    case Some(jql) =>
      var obtained := Obtain(cache, connect);
      match obtained.client
      case Err(_) => Ok(Fetched(cfg', obtained.cache, None))
      case Ok(svc) =>
        match svc.search(jql, cfg.maxIssues)
        case Err(_) => Ok(Fetched(cfg', obtained.cache, None))
        case Ok(hits) => Ok(Fetched(cfg', obtained.cache, Some(hits)))
  }

  /** The parameter map handed to the template: exactly these four keys. */
  datatype Params = Params(issues: seq<View>, jiraURL: string, jiraProjectKey: string, releaseVersion: string)

  datatype Outcome = Skipped(warning: string) | Failed(message: string) | Appended(params: Params, lines: seq<string>)

  /** One view per remote issue, in order. */
  function Wrap(hits: seq<SoapRemoteIssue>, svc: Service): (r: seq<View>)
    ensures |r| == |hits|
    ensures forall k :: 0 <= k < |hits| ==> r[k] == View(hits[k], svc)
  {
    seq(|hits|, k requires 0 <= k < |hits| => View(hits[k], svc))
  }

  /** `output`, run on the configuration `getIssues` left behind. */
  function Output(cfg: Config, issues: Option<seq<SoapRemoteIssue>>, svc: Service, render: Params -> string): (r: Outcome)
    ensures cfg.targetFile.None? ==> r == Skipped("No targetFile specified. Ignoring")
    ensures cfg.targetFile.Some? && issues.None? ==> r == Skipped("No issues found. File will not be generated.")
    ensures cfg.targetFile.Some? && issues.Some? ==>
              (r.Failed? <==> |issues.value| >= 2 && !AllKeysParse(issues.value, (h: SoapRemoteIssue) => h.key))
    ensures r.Skipped? <==> cfg.targetFile.None? || issues.None?
    ensures cfg.targetFile.Some? && issues.Some? && !r.Failed? ==> r.Appended?
    ensures r.Appended? ==>
              && issues.Some?
              && multiset(r.params.issues) == multiset(Wrap(issues.value, svc))
              && r.params.issues == SortIssues(Wrap(issues.value, svc), GetKey).value
              && r.params.jiraURL == cfg.url
              && r.params.jiraProjectKey == cfg.jiraProjectKey
              && r.params.releaseVersion == cfg.releaseVersion
              && r.lines == ReleaseNotes.Surround(cfg.beforeText, render(r.params), cfg.afterText)
  {
    if cfg.targetFile.None? then Skipped("No targetFile specified. Ignoring")
    else if issues.None? then Skipped("No issues found. File will not be generated.")
    else
      var views := Wrap(issues.value, svc);
      assert AllKeysParse(views, GetKey) <==> AllKeysParse(issues.value, (h: SoapRemoteIssue) => h.key) by {
        assert forall k :: 0 <= k < |views| ==> GetKey(views[k]) == issues.value[k].key;
      }
      match SortIssues(views, GetKey)
      case Err(e) => Failed(e)
      case Ok(sorted) =>
        var p := Params(sorted, cfg.url, cfg.jiraProjectKey, cfg.releaseVersion);
        Appended(p, ReleaseNotes.Surround(cfg.beforeText, render(p), cfg.afterText))
  }

  /** The template receives the normalised version: `output` follows
      `getIssues`, which wrote it back. */
  lemma TemplateSeesNormalizedVersion(cfg: Config, cache: Option<Service>, connect: Result<Service, string>,
                                      svc: Service, render: Params -> string)
    requires GetIssues(cfg, cache, connect).Ok?
    ensures var f := GetIssues(cfg, cache, connect).value;
            var out := Output(f.config, f.issues, svc, render);
            out.Appended? ==> out.params.releaseVersion == NormalizeVersion(cfg.releaseVersion)
                              && '-' !in out.params.releaseVersion
  {
  }

  /** The notes list the issues by non-decreasing key number, as the views
      report their keys, and issues with the same number keep the search
      order. */
  lemma OutputOrdersByKey(cfg: Config, issues: Option<seq<SoapRemoteIssue>>, svc: Service,
                          render: Params -> string, v: View)
    requires Output(cfg, issues, svc, render).Appended?
    ensures var listed := Output(cfg, issues, svc, render).params.issues;
            forall i, j :: 0 <= i < j < |listed| ==>
              KeyNumber(GetKey(listed[i])).GetOr(0) <= KeyNumber(GetKey(listed[j])).GetOr(0)
    ensures Equivalents(Output(cfg, issues, svc, render).params.issues, v, ByKey(GetKey))
            == Equivalents(Wrap(issues.value, svc), v, ByKey(GetKey))
  {
    SortIssuesOrdered(Wrap(issues.value, svc), GetKey, v);
  }
}

=== FILE: soap_service.dfy ===
/** The slice of the JIRA SOAP service that the SOAP variant reads, as a
    record of lookups, together with the first-id-match rule both SOAP
    issue mappings use to turn a remote code into a display name. The
    login token is implicit. */
module SoapService {
  import opened Wrappers

  /** `Remote`: a `RemoteException`. `Unchecked`: any other exception (the
      `NullPointerException` of a null user, array or project, say), which
      no SOAP lookup site catches. */
  datatype Failure = Remote(message: string) | Unchecked(message: string)

  /** The exception a dereference of a null answer raises. */
  const NullPointer: Failure := Unchecked("NullPointerException")

  /** The call failed with something other than a `RemoteException`. */
  predicate IsUnchecked<T>(r: Result<T, Failure>) {
    r.Err? && r.error.Unchecked?
  }

  /** An issue type, priority, resolution or status: a non-null id and a
      display name. */
  datatype NamedEntry = NamedEntry(id: string, name: string)

  /** The fields of a SOAP `RemoteIssue` the plugin reads; a `None` code or
      array is a null. Timestamps are not modelled. */
  datatype SoapRemoteIssue = SoapRemoteIssue(
    project: Option<string>,
    reporter: Option<string>,
    issueType: Option<string>,
    key: string,
    assignee: Option<string>,
    id: string,
    priority: Option<string>,
    resolution: Option<string>,
    status: Option<string>,
    summary: Option<string>,
    components: Option<seq<string>>,
    fixVersions: Option<seq<string>>)

  /** The remote calls, each answering with a value or a failure. A project
      lookup may answer null; a null user or a null array answer is the
      `NullPointer` failure of the call that dereferences it. */
  datatype Service = Service(
    search: (string, int) -> Result<seq<SoapRemoteIssue>, Failure>,
    projectByKey: Option<string> -> Result<Option<string>, Failure>,
    userFullName: Option<string> -> Result<string, Failure>,
    issueTypesForProject: string -> Result<seq<NamedEntry>, Failure>,
    priorities: Result<seq<NamedEntry>, Failure>,
    resolutions: Result<seq<NamedEntry>, Failure>,
    statuses: Result<seq<NamedEntry>, Failure>,
    comments: string -> Result<seq<string>, Failure>)

  /** `code` names entry `k`; a null code names nothing, since the id is
      the receiver of `equals`. */
  predicate Names(entries: seq<NamedEntry>, k: int, code: Option<string>)
    requires 0 <= k < |entries|
  {
    code == Some(entries[k].id)
  }

  /** The loop-with-break used for every code lookup: the name of the first
      entry whose id equals the code, or nothing. */
  function FirstMatch(entries: seq<NamedEntry>, code: Option<string>): (r: Option<string>)
    ensures r.None? <==> forall k :: 0 <= k < |entries| ==> !Names(entries, k, code)
    ensures r.Some? ==> exists k :: 0 <= k < |entries| && Names(entries, k, code) && r.value == entries[k].name
                                   && forall j :: 0 <= j < k ==> !Names(entries, j, code)
    decreases |entries|
  {
    if |entries| == 0 then None
    else if Names(entries, 0, code) then Some(entries[0].name)
    else
      var rest := FirstMatch(entries[1..], code);
      assert forall k :: 1 <= k < |entries| ==> (Names(entries, k, code) <==> Names(entries[1..], k - 1, code));
      if rest.Some? then
        var k' :| 0 <= k' < |entries[1..]| && Names(entries[1..], k', code) && rest.value == entries[1..][k'].name
                 && forall j :: 0 <= j < k' ==> !Names(entries[1..], j, code);
        assert Names(entries, k' + 1, code);
        rest
      else rest
  }

  /** Entries listed ahead of every entry with a given id decide the
      lookup: an earlier duplicate id shadows a later one. */
  lemma {:induction false} FirstMatchShadows(front: seq<NamedEntry>, back: seq<NamedEntry>, code: Option<string>)
    requires FirstMatch(front, code).Some?
    ensures FirstMatch(front + back, code) == FirstMatch(front, code)
    decreases |front|
  {
    if Names(front, 0, code) {
      assert Names(front + back, 0, code);
    } else {
      assert (front + back)[1..] == front[1..] + back;
      assert !Names(front + back, 0, code);
      FirstMatchShadows(front[1..], back, code);
    }
  }

  /** A null code never matches. */
  lemma NullCodeMatchesNothing(entries: seq<NamedEntry>)
    ensures FirstMatch(entries, None) == None
  {
  }
}

=== FILE: soap_versions.dfy ===
/** The SOAP variant's version handling: `ReleaseVersionMojo` (pick the
    version to release and mark it released) and `CreateNewVersionMojo`
    (create the next development version unless it already exists). The
    project's version comparator is not part of this model and is a
    parameter; the remote calls are the values they answer with. */
module SoapVersions {
  import opened Wrappers
  import opened Text
  import opened Sorting

  /** A SOAP `RemoteVersion`; the release date is not modelled. */
  datatype SoapVersion = SoapVersion(name: string, released: bool)

  /** `isVersionAlreadyPresent` of both mojos: some version's name equals
      the candidate ignoring case; never for a null array. */
  function IsVersionAlreadyPresent(versions: Option<seq<SoapVersion>>, candidate: string): (r: bool)
    ensures r <==> versions.Some? && exists k :: 0 <= k < |versions.value| && EqualsIgnoreCase(versions.value[k].name, candidate)
  {
    versions.Some? && NamePresent(versions.value, candidate)
  }

  function NamePresent(versions: seq<SoapVersion>, candidate: string): (r: bool)
    ensures r <==> exists k :: 0 <= k < |versions| && EqualsIgnoreCase(versions[k].name, candidate)
    decreases |versions|
  {
    if |versions| == 0 then false
    else if EqualsIgnoreCase(versions[0].name, candidate) then true
    else
      assert forall k :: 1 <= k < |versions| ==> versions[k] == versions[1..][k - 1];
      NamePresent(versions[1..], candidate)
  }

  /** The name of the first unreleased version, or null. */
  function FirstUnreleased(versions: seq<SoapVersion>): (r: Option<nat>)
    ensures r.Some? ==> r.value < |versions| && !versions[r.value].released
    ensures r.Some? ==> forall j :: 0 <= j < r.value ==> versions[j].released
    ensures r.None? ==> forall j :: 0 <= j < |versions| ==> versions[j].released
    decreases |versions|
  {
    if |versions| == 0 then None
    else if !versions[0].released then Some(0)
    else
      match FirstUnreleased(versions[1..])
      case None => None
      case Some(k) => Some(k + 1)
  }

  /** `calculateLatestReleaseVersion`: the array is sorted in place (the
      caller keeps the sorted order) and the first unreleased name in that
      order is returned. A null array makes the sort throw. */
  function CalculateLatestReleaseVersion(versions: Option<seq<SoapVersion>>, le: (SoapVersion, SoapVersion) -> bool)
    : (r: Result<(seq<SoapVersion>, Option<string>), string>)
    ensures r.Err? <==> versions.None?
    ensures r.Ok? ==> r.value.0 == SortBy(versions.value, le)
    ensures r.Ok? ==> (r.value.1.None? <==> forall j :: 0 <= j < |r.value.0| ==> r.value.0[j].released)
    ensures r.Ok? && r.value.1.Some? ==>
              exists k :: 0 <= k < |r.value.0| && !r.value.0[k].released && r.value.0[k].name == r.value.1.value
                          && forall j :: 0 <= j < k ==> r.value.0[j].released
  {
    match versions
    case None => Err("NullPointerException")
    case Some(vs) =>
      var sorted := SortBy(vs, le);
      match FirstUnreleased(sorted)
      case None => Ok((sorted, None))
      case Some(k) => Ok((sorted, Some(sorted[k].name)))
  }

  /** Whether `markVersionAsReleased` stops at `v`. */
  predicate Releasable(v: SoapVersion, target: string) {
    EqualsIgnoreCase(target, v.name) && !v.released
  }

  function FirstReleasable(versions: seq<SoapVersion>, target: string): (r: Option<nat>)
    ensures r.Some? ==> r.value < |versions| && Releasable(versions[r.value], target)
    ensures r.Some? ==> forall j :: 0 <= j < r.value ==> !Releasable(versions[j], target)
    ensures r.None? ==> forall j :: 0 <= j < |versions| ==> !Releasable(versions[j], target)
    decreases |versions|
  {
    if |versions| == 0 then None
    else if Releasable(versions[0], target) then Some(0)
    else
      match FirstReleasable(versions[1..], target)
      case None => None
      case Some(k) => Some(k + 1)
  }

  /** `markVersionAsReleased`: the first unreleased version whose name
      equals the target ignoring case is set released (and sent to the
      server) and returned; every other version is left as it was. */
  function MarkVersionAsReleased(versions: Option<seq<SoapVersion>>, target: string)
    : (r: (Option<seq<SoapVersion>>, Option<SoapVersion>))
    ensures versions.None? ==> r == (None, None)
    ensures versions.Some? ==> r.0.Some? && |r.0.value| == |versions.value|
    ensures versions.Some? && r.1.None? ==>
              r.0 == versions && forall j :: 0 <= j < |versions.value| ==> !Releasable(versions.value[j], target)
    ensures versions.Some? && r.1.Some? ==>
              exists k :: 0 <= k < |versions.value|
                && Releasable(versions.value[k], target)
                && (forall j :: 0 <= j < k ==> !Releasable(versions.value[j], target))
                && r.1.value == versions.value[k].(released := true)
                && r.0.value == versions.value[k := r.1.value]
  {
    match versions
    case None => (None, None)
    case Some(vs) =>
      match FirstReleasable(vs, target)
      case None => (versions, None)
      case Some(k) =>
        var marked := vs[k].(released := true);
        (Some(vs[k := marked]), Some(marked))
  }

  /** What `doExecute` leaves behind: the version array as the mojo holds it
      afterwards and the version marked released, if any. */
  datatype Released = Released(versions: Option<seq<SoapVersion>>, released: Option<SoapVersion>)

  /** `doExecute`: with auto-discovery the target is the first unreleased
      version of the sorted array, and marking runs on that sorted array;
      otherwise the configured release version is used as it is, and a null
      one releases nothing. A failed `getVersions` call propagates. */
  function DoExecute(fetched: Result<Option<seq<SoapVersion>>, string>, auto: bool, releaseVersion: Option<string>,
                     le: (SoapVersion, SoapVersion) -> bool): (r: Result<Released, string>)
    ensures fetched.Err? ==> r == Err(fetched.error)
    ensures fetched.Ok? && !auto && releaseVersion.None? ==> r == Ok(Released(fetched.value, None))
    ensures fetched.Ok? && !auto && releaseVersion.Some? ==>
              var m := MarkVersionAsReleased(fetched.value, releaseVersion.value);
              r == Ok(Released(m.0, m.1))
    ensures fetched.Ok? && auto ==> (r.Err? <==> fetched.value.None?)
  {
    match fetched
    case Err(e) => Err(e)
    case Ok(versions) =>
      if auto then
        match CalculateLatestReleaseVersion(versions, le)
        case Err(e) => Err(e)
        case Ok((sorted, None)) => Ok(Released(Some(sorted), None))
        case Ok((sorted, Some(target))) =>
          var m := MarkVersionAsReleased(Some(sorted), target);
          Ok(Released(m.0, m.1))
      else if releaseVersion.None? then Ok(Released(versions, None))
      else
        var m := MarkVersionAsReleased(versions, releaseVersion.value);
        Ok(Released(m.0, m.1))
  }

  /** With auto-discovery the version marked released is exactly the first
      unreleased version in sorted order: every version before it is
      already released, so no earlier namesake can be picked instead. */
  lemma {:induction false} AutoReleasesFirstUnreleased(vs: seq<SoapVersion>, le: (SoapVersion, SoapVersion) -> bool)
    requires FirstUnreleased(SortBy(vs, le)).Some?
    ensures var sorted := SortBy(vs, le);
            var k := FirstUnreleased(sorted).value;
            DoExecute(Ok(Some(vs)), true, None, le)
              == Ok(Released(Some(sorted[k := sorted[k].(released := true)]), Some(sorted[k].(released := true))))
  {
    var sorted := SortBy(vs, le);
    var k := FirstUnreleased(sorted).value;
    var target := sorted[k].name;
    FirstReleasableAt(sorted, target, k);
  }

  /** The index `markVersionAsReleased` stops at is the releasable one
      with nothing releasable before it. */
  lemma {:induction false} FirstReleasableAt(versions: seq<SoapVersion>, target: string, k: nat)
    requires k < |versions| && Releasable(versions[k], target)
    requires forall j :: 0 <= j < k ==> !Releasable(versions[j], target)
    ensures FirstReleasable(versions, target) == Some(k)
    decreases k
  {
    if k > 0 {
      var tail := versions[1..];
      assert tail[k - 1] == versions[k];
      forall j | 0 <= j < k - 1 ensures !Releasable(tail[j], target) {
        assert tail[j] == versions[j + 1];
      }
      FirstReleasableAt(tail, target, k - 1);
    }
  }

  /** With every version released, nothing is marked in auto mode, and the
      array is left sorted. */
  lemma AllReleasedReleasesNothing(vs: seq<SoapVersion>, le: (SoapVersion, SoapVersion) -> bool)
    requires forall j :: 0 <= j < |vs| ==> vs[j].released
    ensures DoExecute(Ok(Some(vs)), true, None, le) == Ok(Released(Some(SortBy(vs, le)), None))
  {
    var sorted := SortBy(vs, le);
    forall j | 0 <= j < |sorted| ensures sorted[j].released {
      assert sorted[j] in multiset(vs);
    }
  }

  /** Marking a version released never changes which names are present. */
  lemma MarkKeepsNames(versions: Option<seq<SoapVersion>>, target: string, candidate: string)
    ensures IsVersionAlreadyPresent(MarkVersionAsReleased(versions, target).0, candidate)
            == IsVersionAlreadyPresent(versions, candidate)
  {
    var m := MarkVersionAsReleased(versions, target);
    if versions.Some? && m.1.Some? {
      forall j | 0 <= j < |versions.value| ensures m.0.value[j].name == versions.value[j].name {
      }
    }
  }

  /** The name `CreateNewVersionMojo` proposes: the final name when so
      configured, otherwise the development version, normalised. */
  function Candidate(finalNameUsedForVersion: bool, finalName: string, developmentVersion: string): (r: string)
    ensures '-' !in r
    ensures r == NormalizeVersion(if finalNameUsedForVersion then finalName else developmentVersion)
  {
    NormalizeVersion(if finalNameUsedForVersion then finalName else developmentVersion)
  }

  datatype CreateOutcome = Created(name: string) | AlreadyPresent(warning: string)

  /** `CreateNewVersionMojo.doExecute`: `addVersion` is called with the
      normalised candidate exactly when no version has that name ignoring
      case; otherwise only a warning is logged. */
  function CreateNewVersion(fetched: Result<Option<seq<SoapVersion>>, string>, finalNameUsedForVersion: bool,
                            finalName: string, developmentVersion: string): (r: Result<CreateOutcome, string>)
    ensures fetched.Err? <==> r.Err?
    ensures fetched.Ok? ==>
              var name := Candidate(finalNameUsedForVersion, finalName, developmentVersion);
              && (r.value.Created? <==> !IsVersionAlreadyPresent(fetched.value, name))
              && (r.value.Created? ==> r.value.name == name)
              && (r.value.AlreadyPresent? ==>
                    r.value.warning == "Version " + name + " is already created in JIRA. Nothing to do.")
  {
    match fetched
    case Err(e) => Err(e)
    case Ok(versions) =>
      var name := Candidate(finalNameUsedForVersion, finalName, developmentVersion);
      if IsVersionAlreadyPresent(versions, name) then
        Ok(AlreadyPresent("Version " + name + " is already created in JIRA. Nothing to do."))
      else Ok(Created(name))
  }

  /** Running the mojo again after its version was created creates nothing:
      the created name is then present. */
  lemma CreateIsIdempotent(versions: seq<SoapVersion>, finalNameUsedForVersion: bool, finalName: string,
                           developmentVersion: string)
    requires CreateNewVersion(Ok(Some(versions)), finalNameUsedForVersion, finalName, developmentVersion) == Ok(Created(Candidate(finalNameUsedForVersion, finalName, developmentVersion)))
    ensures var name := Candidate(finalNameUsedForVersion, finalName, developmentVersion);
            CreateNewVersion(Ok(Some(versions + [SoapVersion(name, false)])), finalNameUsedForVersion, finalName,
                             developmentVersion).value.AlreadyPresent?
  {
    var name := Candidate(finalNameUsedForVersion, finalName, developmentVersion);
    var vs := versions + [SoapVersion(name, false)];
    assert EqualsIgnoreCase(vs[|versions|].name, name);
  }
}

=== FILE: sorting.dfy ===
/** The stable sort behind `Collections.sort` and `Arrays.sort` on objects,
    written as an insertion sort over a comparator given as "at most"
    (`le(a, b)` stands for `compare(a, b) <= 0`). */
module Sorting {

  ghost predicate Total<T(!new)>(le: (T, T) -> bool) {
    forall a, b :: le(a, b) || le(b, a)
  }

  /** Transitivity at one triple; the quantifier below fires only on this
      term, which keeps the solver from chaining comparisons without end. */
  ghost predicate TransitiveAt<T>(le: (T, T) -> bool, a: T, b: T, c: T) {
    le(a, b) && le(b, c) ==> le(a, c)
  }

  ghost predicate Transitive<T(!new)>(le: (T, T) -> bool) {
    forall a, b, c :: TransitiveAt(le, a, b, c)
  }

  /** What a well-behaved `Comparator` provides. */
  ghost predicate TotalPreorder<T(!new)>(le: (T, T) -> bool) {
    Total(le) && Transitive(le)
  }

  predicate SortedBy<T>(s: seq<T>, le: (T, T) -> bool) {
    forall i, j :: 0 <= i < j < |s| ==> le(s[i], s[j])
  }

  /** Places `x` before the first element it is at most. */
  function Insert<T>(x: T, s: seq<T>, le: (T, T) -> bool): (r: seq<T>)
    ensures |r| == |s| + 1
    ensures multiset(r) == multiset(s) + multiset{x}
  {
    if |s| == 0 then [x]
    else if le(x, s[0]) then [x] + s
    else
      assert s == [s[0]] + s[1..];
      [s[0]] + Insert(x, s[1..], le)
  }

  /** Sorts `s`; elements that compare equal keep their input order. */
  function SortBy<T>(s: seq<T>, le: (T, T) -> bool): (r: seq<T>)
    ensures |r| == |s|
    ensures multiset(r) == multiset(s)
  {
    if |s| == 0 then []
    else
      assert s == [s[0]] + s[1..];
      Insert(s[0], SortBy(s[1..], le), le)
  }

  lemma {:induction false} InsertSorted<T(!new)>(x: T, s: seq<T>, le: (T, T) -> bool)
    requires TotalPreorder(le) && SortedBy(s, le)
    ensures SortedBy(Insert(x, s, le), le)
    decreases |s|
  {
    if |s| != 0 && le(x, s[0]) {
      var r := [x] + s;
      forall i, j | 0 <= i < j < |r| ensures le(r[i], r[j]) {
        if i == 0 {
          assert TransitiveAt(le, x, s[0], s[j - 1]);
        } else {
          assert r[i] == s[i - 1] && r[j] == s[j - 1];
        }
      }
    } else if |s| != 0 {
      var tail := s[1..];
      assert SortedBy(tail, le) by {
        forall i, j | 0 <= i < j < |tail| ensures le(tail[i], tail[j]) {
          assert tail[i] == s[i + 1] && tail[j] == s[j + 1];
        }
      }
      InsertSorted(x, tail, le);
      var rest := Insert(x, tail, le);
      var r := [s[0]] + rest;
      forall k | 0 <= k < |rest| ensures le(s[0], rest[k]) {
        assert rest[k] in multiset(rest);
        if rest[k] != x {
          assert rest[k] in multiset(tail);
          var m :| 0 <= m < |tail| && tail[m] == rest[k];
          assert tail[m] == s[m + 1];
        }
      }
      forall i, j | 0 <= i < j < |r| ensures le(r[i], r[j]) {
        if i == 0 {
          assert r[j] == rest[j - 1];
        } else {
          assert r[i] == rest[i - 1] && r[j] == rest[j - 1];
        }
      }
    }
  }

  /** The sorted output is ordered under the comparator. */
  lemma {:induction false} SortBySorted<T(!new)>(s: seq<T>, le: (T, T) -> bool)
    requires TotalPreorder(le)
    ensures SortedBy(SortBy(s, le), le)
    decreases |s|
  {
    if |s| != 0 {
      SortBySorted(s[1..], le);
      InsertSorted(s[0], SortBy(s[1..], le), le);
    }
  }

  /** The elements of `s` that compare equal to `x`, in order. */
  function Equivalents<T>(s: seq<T>, x: T, le: (T, T) -> bool): (r: seq<T>)
    ensures |r| <= |s|
  {
    if |s| == 0 then []
    else (if le(s[0], x) && le(x, s[0]) then [s[0]] else []) + Equivalents(s[1..], x, le)
  }

  /** `Equivalents` unfolded at a leading element. */
  lemma EquivalentsCons<T>(y: T, s: seq<T>, x: T, le: (T, T) -> bool)
    ensures Equivalents([y] + s, x, le) == (if le(y, x) && le(x, y) then [y] else []) + Equivalents(s, x, le)
  {
    assert ([y] + s)[0] == y && ([y] + s)[1..] == s;
  }

  lemma {:induction false} InsertEquivalents<T(!new)>(y: T, s: seq<T>, x: T, le: (T, T) -> bool)
    requires Transitive(le)
    ensures Equivalents(Insert(y, s, le), x, le)
            == (if le(y, x) && le(x, y) then [y] else []) + Equivalents(s, x, le)
    decreases |s|
  {
    if |s| == 0 {
      assert Insert(y, s, le) == [y] + s;
      EquivalentsCons(y, s, x, le);
    } else if le(y, s[0]) {
      assert Insert(y, s, le) == [y] + s;
      EquivalentsCons(y, s, x, le);
    } else {
      InsertTail(y, s, x, le);
    }
  }

  /** `Insert` unfolded where `y` goes past the head of `s`. */
  lemma InsertPast<T>(y: T, s: seq<T>, le: (T, T) -> bool)
    requires |s| > 0 && !le(y, s[0])
    ensures Insert(y, s, le) == [s[0]] + Insert(y, s[1..], le)
  {
  }

  /** Two elements on either side of a strict step cannot both be
      equivalent to the same `x`. */
  lemma NotBothEquivalent<T(!new)>(y: T, s0: T, x: T, le: (T, T) -> bool)
    requires Transitive(le) && !le(y, s0)
    ensures !(le(y, x) && le(x, y) && le(s0, x) && le(x, s0))
  {
    assert TransitiveAt(le, y, x, s0);
  }

  /** The case where `y` goes past the head of `s`: an element equivalent
      to `x` cannot sit on both sides of the head. */
  lemma {:induction false} InsertTail<T(!new)>(y: T, s: seq<T>, x: T, le: (T, T) -> bool)
    requires Transitive(le) && |s| > 0 && !le(y, s[0])
    ensures Equivalents(Insert(y, s, le), x, le)
            == (if le(y, x) && le(x, y) then [y] else []) + Equivalents(s, x, le)
    decreases |s|, 0
  {
    var hy: seq<T> := if le(y, x) && le(x, y) then [y] else [];
    var s0, tail := s[0], s[1..];
    var hs: seq<T> := if le(s0, x) && le(x, s0) then [s0] else [];
    var e := Equivalents(tail, x, le);
    assert Equivalents(Insert(y, s, le), x, le) == hs + (hy + e) by {
      InsertEquivalents(y, tail, x, le);
      InsertPast(y, s, le);
      EquivalentsCons(s0, Insert(y, tail, le), x, le);
    }
    assert Equivalents(s, x, le) == hs + e by {
      assert s == [s0] + tail;
      EquivalentsCons(s0, tail, x, le);
    }
    assert hs == [] || hy == [] by {
      NotBothEquivalent(y, s0, x, le);
    }
    SwapEmpty(hs, hy, e);
  }

  lemma SwapEmpty<T>(a: seq<T>, b: seq<T>, e: seq<T>)
    requires a == [] || b == []
    ensures a + (b + e) == b + (a + e)
  {
    if a == [] {
      assert a + (b + e) == b + e == b + (a + e);
    } else {
      assert a + (b + e) == a + e == b + (a + e);
    }
  }

  /** Stability: the elements equal to any `x` appear in the output in the
      order they had in the input. */
  lemma {:induction false} SortByStable<T(!new)>(s: seq<T>, x: T, le: (T, T) -> bool)
    requires TotalPreorder(le)
    ensures Equivalents(SortBy(s, le), x, le) == Equivalents(s, x, le)
    decreases |s|
  {
    if |s| != 0 {
      SortByStable(s[1..], x, le);
      InsertEquivalents(s[0], SortBy(s[1..], le), x, le);
    }
  }
}

=== FILE: text.dfy ===
/** The string operations the plugin borrows from the Java and Apache
    libraries, with ASCII semantics: case folding, `equalsIgnoreCase`,
    `compareToIgnoreCase`, `String.replace`, word capitalisation, the release
    version normalisation built from them, and the `''`/`{0}`/`{1}` subset of
    `MessageFormat.format`. */
module Text {
  import opened Wrappers

  predicate IsAsciiUpper(c: char) { 'A' <= c <= 'Z' }

  predicate IsAsciiLower(c: char) { 'a' <= c <= 'z' }

  /** `Character.toLowerCase` restricted to ASCII letters. */
  function ToLower(c: char): (r: char)
    ensures IsAsciiUpper(c) ==> IsAsciiLower(r) && r as int == c as int + 32
    ensures !IsAsciiUpper(c) ==> r == c
  {
    if IsAsciiUpper(c) then (c as int + 32) as char else c
  }

  /** `Character.toTitleCase` (and `toUpperCase`) restricted to ASCII letters. */
  function ToUpper(c: char): (r: char)
    ensures IsAsciiLower(c) ==> IsAsciiUpper(r) && r as int == c as int - 32
    ensures !IsAsciiLower(c) ==> r == c
  {
    if IsAsciiLower(c) then (c as int - 32) as char else c
  }

  /** `Character.isWhitespace` on the ASCII range: space, the tab, line feed,
      vertical tab, form feed and carriage return controls, and the four
      separator controls U+001C..U+001F. */
  predicate IsWhitespace(c: char) {
    c == ' ' || ('\t' <= c <= '\r') || ('\U{1C}' <= c <= '\U{1F}')
  }

  /** Upper casing keeps whitespace, keeps '-', and is idempotent. */
  lemma ToUpperKeepsClass(c: char)
    ensures IsWhitespace(ToUpper(c)) <==> IsWhitespace(c)
    ensures ToUpper(c) == '-' <==> c == '-'
    ensures ToUpper(ToUpper(c)) == ToUpper(c)
  {
  }

  function LowerAll(s: string): (r: string)
    ensures |r| == |s|
    ensures forall i :: 0 <= i < |s| ==> r[i] == ToLower(s[i])
  {
    seq(|s|, i requires 0 <= i < |s| => ToLower(s[i]))
  }

  /** `String.equalsIgnoreCase` for two non-null strings. */
  predicate EqualsIgnoreCase(a: string, b: string) {
    LowerAll(a) == LowerAll(b)
  }

  /** `String.compareToIgnoreCase`: the difference of the first pair of
      case-folded characters that differ, or else the difference of lengths. */
  function CompareToIgnoreCase(a: string, b: string): (r: int)
    ensures r == 0 <==> EqualsIgnoreCase(a, b)
    ensures (|a| == 0 || |b| == 0) ==> r == |a| - |b|
  {
    if |a| == 0 || |b| == 0 then |a| - |b|
    else if ToLower(a[0]) != ToLower(b[0]) then ToLower(a[0]) as int - ToLower(b[0]) as int
    else
      var rest := CompareToIgnoreCase(a[1..], b[1..]);
      assert LowerAll(a) == [ToLower(a[0])] + LowerAll(a[1..]);
      assert LowerAll(b) == [ToLower(b[0])] + LowerAll(b[1..]);
      rest
  }

  /** Swapping the operands negates the comparison. */
  lemma {:induction false} CompareToIgnoreCaseAntisymmetric(a: string, b: string)
    ensures CompareToIgnoreCase(a, b) == -CompareToIgnoreCase(b, a)
    decreases |a|
  {
    if |a| != 0 && |b| != 0 && ToLower(a[0]) == ToLower(b[0]) {
      CompareToIgnoreCaseAntisymmetric(a[1..], b[1..]);
    }
  }

  /** "At most" under `compareToIgnoreCase` is transitive, so it is a total
      preorder on strings. */
  lemma {:induction false} CompareToIgnoreCaseTransitive(a: string, b: string, c: string)
    requires CompareToIgnoreCase(a, b) <= 0 && CompareToIgnoreCase(b, c) <= 0
    ensures CompareToIgnoreCase(a, c) <= 0
    decreases |a|
  {
    if |a| != 0 && |b| != 0 && |c| != 0
       && ToLower(a[0]) == ToLower(b[0]) && ToLower(b[0]) == ToLower(c[0]) {
      CompareToIgnoreCaseTransitive(a[1..], b[1..], c[1..]);
    }
  }

  /** A proper prefix compares below the longer string. */
  lemma {:induction false} ProperPrefixComparesBelow(a: string, b: string)
    requires |a| < |b| && a == b[..|a|]
    ensures CompareToIgnoreCase(a, b) < 0
    decreases |a|
  {
    if |a| != 0 {
      assert a[1..] == b[1..][..|a| - 1];
      ProperPrefixComparesBelow(a[1..], b[1..]);
    }
  }

  /** Whether `pat` occurs in `s` starting at index `i`. */
  predicate OccursAt(s: string, pat: string, i: nat) {
    i + |pat| <= |s| && s[i..i + |pat|] == pat
  }

  /** `String.replace(target, replacement)`: every non-overlapping occurrence
      of `pat`, scanning left to right, is replaced by `rep`. */
  function ReplaceAll(s: string, pat: string, rep: string): string
    requires |pat| > 0
    decreases |s|
  {
    if |s| < |pat| then s
    else if s[..|pat|] == pat then rep + ReplaceAll(s[|pat|..], pat, rep)
    else [s[0]] + ReplaceAll(s[1..], pat, rep)
  }

  /** Replacing a pattern that holds a character absent from `s` changes
      nothing. */
  lemma {:induction false} ReplaceAllAbsent(s: string, pat: string, rep: string, k: nat)
    requires k < |pat| && pat[k] !in s
    ensures ReplaceAll(s, pat, rep) == s
    decreases |s|
  {
    if |s| >= |pat| {
      assert s[..|pat|][k] == s[k];
      assert s[..|pat|] != pat;
      ReplaceAllAbsent(s[1..], pat, rep, k);
      assert s == [s[0]] + s[1..];
    }
  }

  /** A character that is neither in `s` nor in `rep` is not in the result. */
  lemma {:induction false} ReplaceAllKeepsAbsent(s: string, pat: string, rep: string, c: char)
    requires |pat| > 0 && c !in s && c !in rep
    ensures c !in ReplaceAll(s, pat, rep)
    decreases |s|
  {
    if |s| >= |pat| {
      if s[..|pat|] == pat {
        ReplaceAllKeepsAbsent(s[|pat|..], pat, rep, c);
      } else {
        ReplaceAllKeepsAbsent(s[1..], pat, rep, c);
      }
    }
  }

  /** Replacing never makes the string longer when the replacement is no
      longer than the pattern. */
  lemma {:induction false} ReplaceAllShrinks(s: string, pat: string, rep: string)
    requires |pat| > 0 && |rep| <= |pat|
    ensures |ReplaceAll(s, pat, rep)| <= |s|
    decreases |s|
  {
    if |s| >= |pat| {
      if s[..|pat|] == pat {
        ReplaceAllShrinks(s[|pat|..], pat, rep);
      } else {
        ReplaceAllShrinks(s[1..], pat, rep);
      }
    }
  }

  /** `replace("-", " ")`: a one-character pattern with a one-character
      replacement maps every character on its own. */
  function ReplaceChar(s: string, from: char, to: char): (r: string)
    ensures |r| == |s|
    ensures forall i :: 0 <= i < |s| ==> r[i] == (if s[i] == from then to else s[i])
    ensures r == ReplaceAll(s, [from], [to])
    decreases |s|
  {
    if |s| == 0 then []
    else
      var rest := ReplaceChar(s[1..], from, to);
      assert s[..1] == [s[0]];
      [if s[0] == from then to else s[0]] + rest
  }

  /** The word-capitalising scan of `WordUtils.capitalize` and
      `StringUtils.capitaliseAllWords`: a non-whitespace character is upper
      cased when it follows whitespace (or starts the text and `atStart`). */
  function CapitalizeFrom(s: string, atStart: bool): (r: string)
    ensures |r| == |s|
    ensures |s| > 0 ==> r[0] == (if atStart then ToUpper(s[0]) else s[0])
    ensures forall i :: 0 < i < |s| ==>
              r[i] == (if IsWhitespace(s[i - 1]) then ToUpper(s[i]) else s[i])
    decreases |s|
  {
    if |s| == 0 then []
    else if IsWhitespace(s[0]) then [s[0]] + CapitalizeFrom(s[1..], true)
    else if atStart then [ToUpper(s[0])] + CapitalizeFrom(s[1..], false)
    else [s[0]] + CapitalizeFrom(s[1..], false)
  }

  /** Whether index `i` of `s` begins a whitespace-delimited word. */
  predicate StartsWord(s: string, i: int)
    requires 0 <= i < |s|
  {
    i == 0 || IsWhitespace(s[i - 1])
  }

  /** Capitalise every whitespace-delimited word; all other characters are
      left as they are. */
  function Capitalize(s: string): (r: string)
    ensures |r| == |s|
    ensures forall i :: 0 <= i < |s| ==>
              r[i] == (if StartsWord(s, i) then ToUpper(s[i]) else s[i])
  {
    CapitalizeFrom(s, true)
  }

  /** Capitalising twice is capitalising once. */
  lemma CapitalizeIdempotent(s: string)
    ensures Capitalize(Capitalize(s)) == Capitalize(s)
  {
    var r := Capitalize(s);
    var rr := Capitalize(r);
    forall i | 0 <= i < |s|
      ensures rr[i] == r[i]
    {
      ToUpperKeepsClass(s[i]);
      if i > 0 {
        ToUpperKeepsClass(s[i - 1]);
        assert r[i - 1] == ToUpper(s[i - 1]) || r[i - 1] == s[i - 1];
      }
      assert StartsWord(r, i) == StartsWord(s, i);
    }
  }

  /** Capitalising never introduces a '-'. */
  lemma CapitalizeKeepsNoDash(s: string)
    requires '-' !in s
    ensures '-' !in Capitalize(s)
  {
    var r := Capitalize(s);
    forall i | 0 <= i < |r| ensures r[i] != '-' {
      assert s[i] != '-';
      ToUpperKeepsClass(s[i]);
    }
  }

  /** The release version normalisation: drop every "-SNAPSHOT", turn each
      remaining '-' into a space, then capitalise each word. */
  function NormalizeVersion(raw: string): (r: string)
    ensures '-' !in r
    ensures |r| <= |raw|
  {
    var stripped := ReplaceAll(raw, "-SNAPSHOT", "");
    var spaced := ReplaceChar(stripped, '-', ' ');
    ReplaceAllShrinks(raw, "-SNAPSHOT", "");
    CapitalizeKeepsNoDash(spaced);
    Capitalize(spaced)
  }

  /** Normalising a normalised version changes nothing. */
  lemma NormalizeVersionIdempotent(raw: string)
    ensures NormalizeVersion(NormalizeVersion(raw)) == NormalizeVersion(raw)
  {
    var n := NormalizeVersion(raw);
    ReplaceAllAbsent(n, "-SNAPSHOT", "", 0);
    assert ReplaceChar(n, '-', ' ') == n;
    var spaced := ReplaceChar(ReplaceAll(raw, "-SNAPSHOT", ""), '-', ' ');
    CapitalizeIdempotent(spaced);
  }

  lemma NormalizeVersionSnapshotExample()
    ensures NormalizeVersion("1.0-SNAPSHOT") == "1.0"
  {
    var raw := "1.0-SNAPSHOT";
    assert raw[3..][..9] == "-SNAPSHOT";
    assert ReplaceAll(raw[3..], "-SNAPSHOT", "") == "";
    assert ReplaceAll(raw[2..], "-SNAPSHOT", "") == "0";
    assert ReplaceAll(raw[1..], "-SNAPSHOT", "") == ".0";
    assert ReplaceAll(raw, "-SNAPSHOT", "") == "1.0";
    var spaced := ReplaceChar("1.0", '-', ' ');
    assert spaced == "1.0";
    assert Capitalize(spaced) == "1.0";
  }

  /** A trailing "-SNAPSHOT" on a dash-free version is simply dropped. */
  lemma NormalizeVersionDropsSnapshot(v: string)
    requires '-' !in v
    ensures NormalizeVersion(v + "-SNAPSHOT") == Capitalize(v)
  {
    ReplaceAllSuffix(v, "-SNAPSHOT");
    ReplaceAllAbsent(v, "-", " ", 0);
    assert ReplaceChar(v, '-', ' ') == v;
  }

  lemma {:induction false} ReplaceAllSuffix(v: string, pat: string)
    requires |pat| > 0 && pat[0] !in v
    ensures ReplaceAll(v + pat, pat, "") == v
    decreases |v|
  {
    if |v| == 0 {
      assert (v + pat)[..|pat|] == pat;
      assert (v + pat)[|pat|..] == [];
    } else {
      assert (v + pat)[..|pat|][0] != pat[0];
      assert (v + pat)[1..] == v[1..] + pat;
      ReplaceAllSuffix(v[1..], pat);
      assert v == [v[0]] + v[1..];
    }
  }

  /** Words separated by a space are capitalised independently. */
  lemma CapitalizeJoin(a: string, b: string)
    ensures Capitalize(a + " " + b) == Capitalize(a) + " " + Capitalize(b)
  {
    var s := a + " " + b;
    var r := Capitalize(s);
    var t := Capitalize(a) + " " + Capitalize(b);
    forall i | 0 <= i < |s| ensures r[i] == t[i] {
      if i < |a| {
        assert StartsWord(s, i) == StartsWord(a, i);
      } else if i > |a| {
        var j := i - |a| - 1;
        assert s[i] == b[j];
        assert StartsWord(s, i) == StartsWord(b, j);
      }
    }
  }

  /** A single word gets only its first character upper cased. */
  lemma CapitalizeWord(w: string)
    requires |w| > 0
    requires forall i :: 0 <= i < |w| ==> !IsWhitespace(w[i])
    ensures Capitalize(w) == [ToUpper(w[0])] + w[1..]
  {
    var r := Capitalize(w);
    forall i | 0 < i < |w| ensures r[i] == w[i] {
      assert !StartsWord(w, i);
    }
  }

  /** One piece of a message pattern in the supported subset. */
  datatype Piece = Literal(text: string) | Arg0 | Arg1

  /** What `MessageFormat.format(pattern, a0, a1)` produces for a pattern made
      of these pieces. */
  function Render(pieces: seq<Piece>, a0: string, a1: string): string
  {
    if |pieces| == 0 then ""
    else
      var head := match pieces[0]
        case Literal(t) => t
        case Arg0 => a0
        case Arg1 => a1;
      head + Render(pieces[1..], a0, a1)
  }

  /** A literal the subset can express: it may not contain '{'. */
  predicate Expressible(pieces: seq<Piece>) {
    forall i :: 0 <= i < |pieces| && pieces[i].Literal? ==> '{' !in pieces[i].text
  }

  /** Writes a literal in pattern syntax: each quote is doubled. */
  function QuoteLiteral(t: string): (r: string)
    ensures |r| >= |t|
  {
    if |t| == 0 then ""
    else (if t[0] == '\'' then "''" else [t[0]]) + QuoteLiteral(t[1..])
  }

  lemma {:induction false} QuoteLiteralPlain(t: string)
    requires '\'' !in t
    ensures QuoteLiteral(t) == t
    decreases |t|
  {
    if |t| != 0 {
      QuoteLiteralPlain(t[1..]);
      assert t == [t[0]] + t[1..];
    }
  }

  /** Writes the pieces as a message pattern. */
  function Pattern(pieces: seq<Piece>): string
  {
    if |pieces| == 0 then ""
    else
      var head := match pieces[0]
        case Literal(t) => QuoteLiteral(t)
        case Arg0 => "{0}"
        case Arg1 => "{1}";
      head + Pattern(pieces[1..])
  }

  function Prepend(prefix: string, rest: Option<string>): Option<string>
  {
    match rest
    case Some(s) => Some(prefix + s)
    case None => None
  }

  /** `MessageFormat.format(pattern, a0, a1)` on the subset the plugin's
      templates use: `''` stands for one quote, `{0}` and `{1}` for the two
      arguments, every other character for itself. `None` marks a pattern
      outside this subset (a lone quote or another brace form). */
  function Format(pattern: string, a0: string, a1: string): Option<string>
    decreases |pattern|
  {
    if |pattern| == 0 then Some("")
    else if pattern[0] == '\'' then
      if |pattern| >= 2 && pattern[1] == '\'' then Prepend("'", Format(pattern[2..], a0, a1))
      else None
    else if pattern[0] == '{' then
      if |pattern| >= 3 && pattern[1] == '0' && pattern[2] == '}' then Prepend(a0, Format(pattern[3..], a0, a1))
      else if |pattern| >= 3 && pattern[1] == '1' && pattern[2] == '}' then Prepend(a1, Format(pattern[3..], a0, a1))
      else None
    else Prepend([pattern[0]], Format(pattern[1..], a0, a1))
  }

  lemma {:induction false} FormatQuotedLiteral(t: string, rest: string, a0: string, a1: string)
    requires '{' !in t
    ensures Format(QuoteLiteral(t) + rest, a0, a1) == Prepend(t, Format(rest, a0, a1))
    decreases |t|
  {
    if |t| == 0 {
      assert QuoteLiteral(t) + rest == rest;
      match Format(rest, a0, a1)
      case Some(x) => assert t + x == x;
      case None =>
    } else {
      FormatQuotedLiteral(t[1..], rest, a0, a1);
      var tail := QuoteLiteral(t[1..]) + rest;
      var tailOut := Format(tail, a0, a1);
      assert tailOut == Prepend(t[1..], Format(rest, a0, a1));
      var head := if t[0] == '\'' then "''" else [t[0]];
      assert QuoteLiteral(t) == head + QuoteLiteral(t[1..]);
      assert QuoteLiteral(t) + rest == head + tail;
      if t[0] == '\'' {
        assert (head + tail)[0] == '\'' && (head + tail)[1] == '\'';
        assert (head + tail)[2..] == tail;
        assert Format(head + tail, a0, a1) == Prepend("'", tailOut);
      } else {
        assert t[0] != '{';
        assert (head + tail)[0] == t[0];
        assert (head + tail)[1..] == tail;
        assert Format(head + tail, a0, a1) == Prepend([t[0]], tailOut);
      }
      assert t == [t[0]] + t[1..];
      match Format(rest, a0, a1)
      case Some(x) => assert [t[0]] + (t[1..] + x) == t + x;
      case None =>
    }
  }

  /** Formatting a pattern written from pieces yields their rendering: `''`
      renders as one quote, `{0}` as `a0`, `{1}` as `a1`. */
  lemma {:induction false} FormatPattern(pieces: seq<Piece>, a0: string, a1: string)
    requires Expressible(pieces)
    ensures Format(Pattern(pieces), a0, a1) == Some(Render(pieces, a0, a1))
    decreases |pieces|
  {
    if |pieces| != 0 {
      assert Expressible(pieces[1..]) by {
        forall i | 0 <= i < |pieces[1..]| && pieces[1..][i].Literal?
          ensures '{' !in pieces[1..][i].text
        {
          assert pieces[1..][i] == pieces[i + 1];
        }
      }
      FormatPattern(pieces[1..], a0, a1);
      var rest := Pattern(pieces[1..]);
      match pieces[0]
      case Literal(t) =>
        FormatQuotedLiteral(t, rest, a0, a1);
      case Arg0 =>
        assert ("{0}" + rest)[3..] == rest;
      case Arg1 =>
        assert ("{1}" + rest)[3..] == rest;
    }
  }
}

=== FILE: transitions.dfy ===
/** The REST `TransitionIssuesMojo`: for each downloaded issue, look up its
    available transitions and apply the first one whose name equals the
    configured transition. The lookup and the apply call are parameters;
    an exception from either ends the run. */
module Transitions {
  import opened Wrappers
  import opened IssueModel
  import RestDownloader

  datatype Transition = Transition(id: int, name: string)

  /** What happened to one issue. */
  datatype IssueOutcome =
    | NoTransitions(key: Option<string>)
    | Applied(key: Option<string>, transitionId: int)
    | NotFound(transition: Option<string>, key: Option<string>)

  /** Java's rendering of a possibly null string in a concatenation. */
  function Shown(s: Option<string>): string {
    if s.Some? then s.value else "null"
  }

  /** The warning logged for an outcome, if any. */
  function Warning(o: IssueOutcome): (w: Option<string>)
    ensures w.None? <==> o.Applied?
  {
    match o
    case NoTransitions(key) => Some("No transitions found for issue " + Shown(key))
    case Applied(_, _) => None
    case NotFound(t, key) => Some("No transition with name '" + Shown(t) + "' found for issue " + Shown(key))
  }

  /** The remote side: the transitions of an issue (`None` for a null
      iterable) and the apply call. */
  type Lookup = Option<RemoteRef> -> Result<Option<seq<Transition>>, string>
  type Apply = (Option<RemoteRef>, int) -> Result<(), string>

  /** `name.equals(transition)`: a null transition equals no name. */
  predicate NameMatches(t: Transition, requested: Option<string>) {
    requested == Some(t.name)
  }

  function FirstNamed(ts: seq<Transition>, requested: Option<string>): (r: Option<nat>)
    ensures r.Some? ==> r.value < |ts| && NameMatches(ts[r.value], requested)
    ensures r.Some? ==> forall j :: 0 <= j < r.value ==> !NameMatches(ts[j], requested)
    ensures r.None? ==> forall j :: 0 <= j < |ts| ==> !NameMatches(ts[j], requested)
    decreases |ts|
  {
    if |ts| == 0 then None
    else if NameMatches(ts[0], requested) then Some(0)
    else
      match FirstNamed(ts[1..], requested)
      case None => None
      case Some(k) => Some(k + 1)
  }

  /** One iteration of `transitionIssues`. */
  function Decide(issue: JiraIssue, requested: Option<string>, lookup: Lookup, apply: Apply): (r: Result<IssueOutcome, string>)
    ensures lookup(issue.remoteIssue).Err? ==> r == Err(lookup(issue.remoteIssue).error)
    ensures lookup(issue.remoteIssue).Ok? ==>
              var ts := lookup(issue.remoteIssue).value;
              && (ts.None? || |ts.value| == 0 ==> r == Ok(NoTransitions(Get(issue, Key))))
              && (ts.Some? && |ts.value| > 0 ==>
                    match FirstNamed(ts.value, requested)
                    case None => r == Ok(NotFound(requested, Get(issue, Key)))
                    case Some(k) =>
                      if apply(issue.remoteIssue, ts.value[k].id).Err?
                      then r == Err(apply(issue.remoteIssue, ts.value[k].id).error)
                      else r == Ok(Applied(Get(issue, Key), ts.value[k].id)))
  {
    match lookup(issue.remoteIssue)
    case Err(e) => Err(e)
    case Ok(None) => Ok(NoTransitions(Get(issue, Key)))
    case Ok(Some(ts)) =>
      if |ts| == 0 then Ok(NoTransitions(Get(issue, Key)))
      else
        match FirstNamed(ts, requested)
        case None => Ok(NotFound(requested, Get(issue, Key)))
        case Some(k) =>
          match apply(issue.remoteIssue, ts[k].id)
          case Err(e) => Err(e)
          case Ok(_) => Ok(Applied(Get(issue, Key), ts[k].id))
  }

  /** An applied transition is one the issue offers under the requested
      name, and it is the first such one. */
  lemma AppliedIsFirstMatch(issue: JiraIssue, requested: Option<string>, lookup: Lookup, apply: Apply)
    requires Decide(issue, requested, lookup, apply).Ok?
    requires Decide(issue, requested, lookup, apply).value.Applied?
    ensures var ts := lookup(issue.remoteIssue).value.value;
            exists k :: 0 <= k < |ts| && ts[k].name == requested.value
                        && Decide(issue, requested, lookup, apply).value.transitionId == ts[k].id
                        && forall j :: 0 <= j < k ==> ts[j].name != requested.value
  {
    var ts := lookup(issue.remoteIssue).value.value;
    var k := FirstNamed(ts, requested).value;
    assert ts[k].name == requested.value;
  }

  /** A run: one outcome per issue handled, in list order, and the
      exception that stopped it, if any. */
  datatype Run = Run(outcomes: seq<IssueOutcome>, failure: Option<string>)

  /** `transitionIssues`. */
  method TransitionIssues(issues: seq<JiraIssue>, requested: Option<string>, lookup: Lookup, apply: Apply)
    returns (r: Run)
    ensures |r.outcomes| <= |issues|
    ensures r.failure.None? <==> |r.outcomes| == |issues|
    ensures forall k :: 0 <= k < |r.outcomes| ==> Decide(issues[k], requested, lookup, apply) == Ok(r.outcomes[k])
    ensures r.failure.Some? ==> Decide(issues[|r.outcomes|], requested, lookup, apply) == Err(r.failure.value)
  {
    var outcomes: seq<IssueOutcome> := [];
    var k := 0;
    while k < |issues|
      invariant 0 <= k <= |issues|
      invariant |outcomes| == k
      invariant forall j :: 0 <= j < k ==> Decide(issues[j], requested, lookup, apply) == Ok(outcomes[j])
    {
      var d := Decide(issues[k], requested, lookup, apply);
      if d.Err? {
        return Run(outcomes, Some(d.error));
      }
      outcomes := outcomes + [d.value];
      k := k + 1;
    }
    return Run(outcomes, None);
  }

  /** With no transition configured, nothing is ever applied. */
  lemma NullTransitionAppliesNothing(issue: JiraIssue, lookup: Lookup, apply: Apply)
    ensures Decide(issue, None, lookup, apply).Ok? ==> !Decide(issue, None, lookup, apply).value.Applied?
  {
    var ts := lookup(issue.remoteIssue);
    if ts.Ok? && ts.value.Some? && |ts.value.value| > 0 {
      assert FirstNamed(ts.value.value, None).None?;
    }
  }

  datatype Execution = Execution(warning: Option<string>, run: Result<Run, RestDownloader.DownloadError>)

  /** `doExecute`: a missing transition is only reported, and the issues
      are still downloaded and walked. Every downloaded issue carries no
      remote handle, so each lookup is asked about a null issue. */
  method DoExecute(d: RestDownloader.Downloader, search: RestDownloader.Search, requested: Option<string>,
                   lookup: Lookup, apply: Apply)
    returns (r: Execution)
    ensures r.warning.Some? <==> requested.None?
    ensures r.run.Err? <==> RestDownloader.GetIssueList(d, search).issues.Err?
    ensures r.run.Ok? ==>
              var issues := RestDownloader.GetIssueList(d, search).issues.value;
              && |r.run.value.outcomes| <= |issues|
              && forall k :: 0 <= k < |r.run.value.outcomes| ==>
                   issues[k].remoteIssue == None
                   && Decide(issues[k], requested, lookup, apply) == Ok(r.run.value.outcomes[k])
  {
    var warning := if requested.None? then Some("Transition not specified. Nothing to do") else None;
    var download := RestDownloader.GetIssueList(d, search);
    if download.issues.Err? {
      return Execution(warning, Err(download.issues.error));
    }
    var issues := download.issues.value;
    RestDownloader.DownloadedIssuesDetached(d, search);
    var run := TransitionIssues(issues, requested, lookup, apply);
    return Execution(warning, Ok(run));
  }
}

=== FILE: wrappers.dfy ===
/** Failure-compatible wrappers shared by every module of the model: `Option`
    stands for a Java reference that may be null, `Result` for a call that
    either returns a value or throws. */
module Wrappers {

  datatype Option<+T> = None | Some(value: T) {

    /** The value, or `default` when there is none. */
    function GetOr(default: T): T {
      match this
      case Some(v) => v
      case None => default
    }
  }

  datatype Result<+T, +E> = Ok(value: T) | Err(error: E) {

    predicate IsFailure() {
      Err?
    }

    function PropagateFailure<U>(): Result<U, E>
      requires Err?
    {
      Err(error)
    }

    function Extract(): T
      requires Ok?
    {
      value
    }

    /** Rewraps the error, as a `catch` that rethrows another exception does. */
    function MapFailure<F>(wrap: E -> F): Result<T, F>
    {
      match this
      case Ok(v) => Ok(v)
      case Err(e) => Err(wrap(e))
    }
  }
}
